=== FILE: README.md ===
# Locale routing, post paths and sitemap dates of a bilingual blog

This project is a Dafny model of the routing core of an Astro blog that
publishes in English and Chinese. It covers three source files.

- `src/i18n/index.ts` holds the two locales. It reads a post's locale and
  slug from its content id, selects a locale's posts, builds localized
  routes, and holds the UI string table.
- `src/utils/getPath.ts` builds a post's page route. The route uses the
  locale prefix, the optional `/posts` base, the category directories the
  post's file sits in, and the id's last segment.
- `src/utils/getSitemapDates.ts` walks the blog directory and reads a
  minimal frontmatter (`pubDatetime`, `modDatetime`, `draft`) with regular
  expressions. It builds a map from each published post's sitemap URL to
  its last-modified date.

The modules follow the sources:

- `I18n` (i18n.dfy) covers the locale helpers.
- `PostPath` (path.dfy) covers the route builder.
- `Frontmatter` (frontmatter.dfy), `SitemapUrl` (sitemap_url.dfy) and
  `SitemapScan` (sitemap_scan.dfy) cover the sitemap scanner.
- `RouteAgreement` (route_agreement.dfy) relates the page route to the
  sitemap URL of the same file.
- `Options`, `Seqs` and `Strings` (strings.dfy) model the JavaScript
  built-ins the sources rely on:
  - `split` always yields at least one part;
  - `replace` with a string pattern replaces the first occurrence only;
  - `trim` uses the ECMAScript white-space and line-terminator set;
  - `slice(0, -1)` drops the last element.

Foreign code and the environment are parameters:

- slugification is a function `string -> string`. There are two of them:
  `getPath` uses the `slugifyStr` it imports from `./slugify` (not part of
  this model), and the scanner calls the `slugify` library itself with
  `lower` and `trim` set;
- `new Date(text)` together with the `isNaN(getTime())` test is a function
  `string -> Option<D>`;
- the `BLOG_PATH` that `getPath` imports is a string, because the
  configuration module `src/content.config.ts` is not part of this model;
- the scanner's own `BLOG_PATH` is the constant `src/data/blog`, and the
  working directory `process.cwd()` it is resolved against is a string;
- the directory tree is an in-memory `Entry` tree, and a missing blog
  directory is `None`.

## Model

| member | source | states |
|---|---|---|
| `I18n.ParseLocale` | src/i18n/index.ts:3-5 | A string is accepted as a locale exactly when it is one of the locale tags, and the accepted locale's tag is that string. |
| `I18n.FirstSegment` | src/i18n/index.ts:10-19 | The first segment is a prefix of the id and holds no slash. If it is shorter than the id, a slash follows it. |
| `I18n.GetLangFromId` | src/i18n/index.ts:9-15 | The result is always one of the locales. An id is Chinese exactly when it is `zh` or starts with `zh/`; every other id is English. |
| `I18n.GetSlugFromId` | src/i18n/index.ts:17-24 | A bare tag (`en` or `zh`) gives the empty slug. An id starting with a tag and a slash is that three-character prefix followed by the slug. Any other id is its own slug. |
| `I18n.IdRoundTrip` | src/i18n/index.ts:9-24 | An id built as tag, slash, slug gives back both the locale and the slug. |
| `I18n.UntaggedId` | src/i18n/index.ts:7-24 | An id whose first segment is not a locale tag is English and is its own slug. |
| `I18n.TaggedIdSplits` | src/i18n/index.ts:17-24 | A tagged id is exactly its locale's tag, a slash and its slug. |
| `I18n.TaggedFirstSegment` | src/i18n/index.ts:10-11 | The first segment is a locale tag exactly when the id is a bare tag or starts with a tag and a slash. |
| `I18n.GetPostsByLang` | src/i18n/index.ts:26-31 | Every selected post has the requested locale. No post of that locale is dropped. The result keeps the input's order (it is a subsequence of the input). |
| `I18n.PostsByLangConcat` | src/i18n/index.ts:26-31 | Selecting from a concatenation is concatenating the two selections. |
| `I18n.PostsByLangPartition` | src/i18n/index.ts:26-31 | The English and Chinese selections together hold every post exactly once, counted as a multiset. |
| `I18n.LocalePrefix` | src/i18n/index.ts:33-36 | The prefix is empty exactly for the default locale; any other locale's prefix is a slash followed by its tag. |
| `I18n.PostUrl` | src/i18n/index.ts:38-41 | A post route is the locale prefix followed by `/posts/` and the slug. It starts with a slash and ends with `/posts/<slug>`. |
| `I18n.PostUrlInjective` | src/i18n/index.ts:38-41 | Two posts with the same route have the same locale and the same slug. |
| `I18n.NatToString` | src/i18n/index.ts:68 | The interpolated minute count is a non-empty string of decimal digits. |
| `I18n.T` | src/i18n/index.ts:47-98 | Both locales' tables are total and every plain string entry is non-empty. |
| `I18n.TemplatesEmbedArgument` | src/i18n/index.ts:61-90 | The tag description contains the tag it was given, and the reading-time text starts with the minute count, in both locales. |
| `I18n.GetLangLabel` | src/i18n/index.ts:43-45 | The switcher label is `EN` for English and `中文` for Chinese. |
| `I18n.LangLabelInjective` | src/i18n/index.ts:43-45 | Distinct locales have distinct labels. |
| `PostPath.RawDirSegments` | src/utils/getPath.ts:13-19 | The kept segments are non-empty, do not start with `_`, and are not locale tags. They keep their order from the path's `/`-parts. They are exactly the surviving segments without the last surviving one. That is the file name unless the file name is itself filtered out. |
| `PostPath.PrivateNameDropsCategory` | src/utils/getPath.ts:13-19 | For a file whose own name starts with `_`, the filters remove the name first, and `slice(0, -1)` then drops the category directory above it. So `<blog>/c/_x.md` has no category segments. |
| `Seqs.Filter` | src/utils/getPath.ts:16-18 | Every kept element passes the test and comes from the input. Every input element that passes is kept. The result is never longer than the input. |
| `Seqs.DropLast` | src/utils/getPath.ts:19 | `slice(0, -1)` of an empty list is empty. Otherwise it is one shorter, and adding back the last element gives the input. |
| `Seqs.Map` | src/utils/getPath.ts:20 | The result has the input's length, and each element is the function applied to the input element at the same index. |
| `PostPath.FiltersAreKeepSegment` | src/utils/getPath.ts:16-18 | The three chained filters are one filter by "non-empty, public, not a locale". |
| `PostPath.DirSegments` | src/utils/getPath.ts:13-20 | A post without a file path has no segments. Otherwise the segments are the slugified kept directories, one for one. |
| `PostPath.GetPath` | src/utils/getPath.ts:5-32 | The route starts with the locale prefix and base followed by a slash, and starts with `/`. It ends with a slash and the id's last segment. It is the `/`-join of head, slugified categories and slug, which without categories is head, slash and slug. |
| `Strings.Join` | src/utils/getPath.ts:28-31 | An empty list joins to the empty string, and a one-element list to its only element. |
| `Strings.JoinEnds` | src/utils/getPath.ts:28-31 | A join starts with its first part and ends with its last. With two or more parts, the separator comes right after the first part. |
| `PostPath.GetPathShape` | src/utils/getPath.ts:27-31 | A joined route is the head, a slash and the joined rest. The slug follows the final slash. |
| `PostPath.GetPathDependsOnLangAndSlug` | src/utils/getPath.ts:10-25 | Two ids with the same locale and the same last segment get the same route. |
| `PostPath.RouteComponents` | src/utils/getPath.ts:27-31 | When the categories and slug hold no slash, splitting the route gives back the head's parts, the categories and the slug. The slash count grows by one per component. |
| `PostPath.GetPathComponents` | src/utils/getPath.ts:5-32 | When slugification never yields a slash, a route's `/`-components are the head's parts, one per category and one for the slug. |
| `Frontmatter.Block` | src/utils/getSitemapDates.ts:18-21 | A block is found exactly when the file starts with `---` and a newline and a later newline-`---` exists. The block is the text up to the first such closing fence, which it does not itself contain. |
| `Strings.FindFrom` | src/utils/getSitemapDates.ts:24-30 | A position found is an occurrence at or after the start position, and no earlier occurrence exists there. None is found exactly when no occurrence exists at or after the start. |
| `Strings.IsSpace` | src/utils/getSitemapDates.ts:24-31 | The blank, the tab and every line terminator count as `\s` white space. No printable ASCII character does. |
| `Strings.IsLineTerminator` | src/utils/getSitemapDates.ts:24-30 | A newline ends the `.+` capture, and blanks and tabs do not. |
| `Frontmatter.Capture` | src/utils/getSitemapDates.ts:24-30 | A key that never occurs captures nothing. A capture is a non-empty single line. When only white space follows the key, the capture is blank. |
| `Frontmatter.CaptureAt` | src/utils/getSitemapDates.ts:24-30 | If `key:` first occurs at `i`, white space runs from after the colon up to `q`, and the line runs on from `q` to `e`, then the capture is exactly `fm[q..e]`. |
| `Frontmatter.KeyLineCapture` | src/utils/getSitemapDates.ts:24-31 | For a first `key:` followed by white space (line breaks included), then a non-blank line `v`, then nothing or a line break, the capture is `v` and the stored value is `v` trimmed. |
| `Frontmatter.BlankTailCapture` | src/utils/getSitemapDates.ts:24-25 | A key followed only by white space trims to the empty string. |
| `Frontmatter.Value` | src/utils/getSitemapDates.ts:24-28 | A value exists exactly when the pattern matched, and it is the captured text trimmed. So a non-empty value has no white space at either end. |
| `Frontmatter.DraftFlag` | src/utils/getSitemapDates.ts:30-31 | The flag is set exactly when the trimmed value is `true`, and absent exactly when the key did not match. |
| `Frontmatter.ParseFrontmatter` | src/utils/getSitemapDates.ts:17-35 | Metadata is returned exactly when a block exists and its `pubDatetime` value is non-blank. `pubDatetime` is that trimmed value. `draft` is true exactly for the text `true`. `modDatetime` is the trimmed match, if any. |
| `Frontmatter.BlankPubDatetimeIsNull` | src/utils/getSitemapDates.ts:24-33 | A `pubDatetime:` followed only by white space makes the file unreadable as metadata. |
| `Frontmatter.NoFenceNoMeta` | src/utils/getSitemapDates.ts:18-19 | A file not starting with the opening fence has no metadata. |
| `Frontmatter.FencedBlock` | src/utils/getSitemapDates.ts:18 | A fenced block without an inner closing fence is found whole, whatever follows it. |
| `Frontmatter.LaterTextIgnored` | src/utils/getSitemapDates.ts:18-35 | Text after the first closing fence, even another `pubDatetime`, never changes the parsed metadata. |
| `Frontmatter.LastmodText` | src/utils/getSitemapDates.ts:75 | A non-empty modification date wins. An empty or missing one falls back to the publication date, so the text is non-empty when the publication date is. |
| `SitemapUrl.PathParts` | src/utils/getSitemapDates.ts:39-40 | A path always has at least one part. |
| `SitemapUrl.FindLocaleIndex` | src/utils/getSitemapDates.ts:42 | The index found is the first part from the start position that is a locale tag; none is found exactly when no later part is a tag. |
| `SitemapUrl.FindLocaleIndexAgrees` | src/utils/getSitemapDates.ts:42-43 | The index search agrees with the reference reading "the first locale part decides, English if none". |
| `SitemapUrl.PathLocaleSkipsPart` | src/utils/getSitemapDates.ts:42-43 | Inserting a part that is not a locale tag never changes the path's locale. |
| `SitemapUrl.PathLocaleOfPrefix` | src/utils/getSitemapDates.ts:42-43 | Once a locale part has occurred, later parts never change the locale. |
| `SitemapUrl.ScannerLang` | src/utils/getSitemapDates.ts:42-43 | The scanner's language string is always `en` or `zh`. |
| `SitemapUrl.SitemapPrefixAgrees` | src/utils/getSitemapDates.ts:43-48 | The scanner's own `"" / "/zh"` choice is the locale prefix of the path's locale. |
| `SitemapUrl.BuildUrlFromFile` | src/utils/getSitemapDates.ts:37-50 | The URL is the base without one trailing slash, the post route for the path's locale and file slug, and a closing slash. It starts with that base and ends with `/posts/<slug>/`. |
| `SitemapUrl.ScannerUrl` | src/utils/getSitemapDates.ts:42-49 | The scanner's string assembly equals base, post route and slash. |
| `SitemapUrl.UrlEnds` | src/utils/getSitemapDates.ts:49 | The assembled URL starts with the base and ends with `/posts/<slug>/`. |
| `SitemapUrl.BaseTrailingSlash` | src/utils/getSitemapDates.ts:38 | One trailing slash of the base is ignored, but only one: with two, the second stays in the URL. |
| `SitemapUrl.BackslashIsSlash` | src/utils/getSitemapDates.ts:39 | Back-slashes in the file path act as slashes. |
| `SitemapUrl.PathPartsConcat` | src/utils/getSitemapDates.ts:39-40 | The parts of `a/b` are the parts of `a` followed by the parts of `b`. |
| `SitemapUrl.PathPartsWithCategory` | src/utils/getSitemapDates.ts:39-40 | A category directory without separators contributes exactly one part. |
| `SitemapUrl.PathPartsOfName` | src/utils/getSitemapDates.ts:39-40 | A name without separators is a single part. |
| `SitemapUrl.CategoryIgnored` | src/utils/getSitemapDates.ts:37-50 | A category directory that is not a locale tag never changes a file's sitemap URL. |
| `SitemapUrl.FileSlug` | src/utils/getSitemapDates.ts:45-46 | A last part ending in `.md` is slugified without those three characters. Any other last part is slugified whole. |
| `SitemapUrl.FileSlugSkipsPart` | src/utils/getSitemapDates.ts:45-46 | Inserting a directory part keeps the file slug. |
| `SitemapUrl.FileSlugOfJoin` | src/utils/getSitemapDates.ts:45-46 | The file slug of `a/b` is the file slug of `b`. |
| `SitemapUrl.UrlDependsOnLocaleAndSlug` | src/utils/getSitemapDates.ts:37-50 | Two paths with the same locale and file slug get the same URL. |
| `SitemapUrl.RootLocaleParts` | src/utils/getSitemapDates.ts:42-46 | Below a root that holds a locale part, the root decides the locale and the file name decides the slug. |
| `SitemapUrl.PlainSuffixKeepsLocale` | src/utils/getSitemapDates.ts:42-43 | Parts that are not locale tags, appended after a path, never change its locale. |
| `SitemapUrl.RootLocaleDecides` | src/utils/getSitemapDates.ts:54-74 | Because the walk passes absolute paths, a locale-named directory above the blog directory decides the locale of every URL below it. |
| `SitemapScan.Contribution` | src/utils/getSitemapDates.ts:68-79 | A file contributes exactly when it is a public `.md` file with metadata, not a draft, and with a parseable last-modified text. Its entry is its sitemap URL and the parsed date of `modDatetime` or else `pubDatetime`. |
| `SitemapScan.EntryFiles` | src/utils/getSitemapDates.ts:61-68 | The files reached through one entry carry the directories above them, and none lies under a directory starting with `_`. Each file's path is the starting directory, the directories entered below it and its name, joined with `/`. |
| `SitemapScan.VisibleFiles` | src/utils/getSitemapDates.ts:56-82 | The reference listing of reached files keeps the directory prefix, and no file lies under a directory starting with `_`. Each file's path is the starting directory, the directories entered and its name, joined with `/`. So no directory on a listed file's path below the blog directory starts with `_`. `VisibleFilesComplete` states the other half, that nothing else is left out. |
| `SitemapScan.VisibleFilesComplete` | src/utils/getSitemapDates.ts:61-68 | Every file directly in a directory is listed. Every file listed below a subdirectory whose name does not start with `_` is listed too. So the walk descends into every such directory. |
| `SitemapScan.Apply` | src/utils/getSitemapDates.ts:78 | `Map.set`: a contribution adds its URL or overwrites its value, and every other URL keeps its value. A missing contribution (`None`) leaves the map unchanged. |
| `SitemapScan.FoldConcat` | src/utils/getSitemapDates.ts:61-81 | Applying two lists of contributions in turn is applying their concatenation. |
| `SitemapScan.ScanEntry` | src/utils/getSitemapDates.ts:62-80 | One entry of `scanDir`'s loop, modelled directly: a directory not starting with `_` is walked recursively, and a file takes its step. It never removes a URL from the map; `EntryIsFold` gives its full meaning. |
| `SitemapScan.ScanEntries` | src/utils/getSitemapDates.ts:56-82 | `scanDir` itself, modelled directly: the entries in listing order update one map. It never removes a URL; `ScanIsFold` gives its full meaning. |
| `SitemapScan.EntryIsFold` | src/utils/getSitemapDates.ts:61-80 | One entry's step of the walk equals applying, in order, the contributions of the files it reaches. |
| `SitemapScan.ScanIsFold` | src/utils/getSitemapDates.ts:56-82 | The recursive walk equals applying the contributions of the flattened listing in order. |
| `SitemapScan.LastWriter` | src/utils/getSitemapDates.ts:61-79 | The index found is the last contribution that sets the URL; none is found exactly when no contribution sets it. |
| `SitemapScan.LastWriteWins` | src/utils/getSitemapDates.ts:78 | A URL some file sets ends up with the date of the last such file: later `set` calls overwrite earlier ones. |
| `SitemapScan.UnwrittenKept` | src/utils/getSitemapDates.ts:53-79 | A URL no file sets keeps its starting value, or stays absent. |
| `SitemapScan.BlogDirLocale` | src/utils/getSitemapDates.ts:5-54 | The blog directory `<cwd>/src/data/blog` has the locale of the working directory, because none of `src`, `data` and `blog` is a locale tag. |
| `SitemapScan.GetSitemapDates` | src/utils/getSitemapDates.ts:52-86 | A missing blog directory gives an empty map. Otherwise, walking from `<cwd>/src/data/blog`, a URL is in the map exactly when some reachable file contributes it, and its date is the one from the last such file in listing order. |
| `SitemapScan.SitemapOrigins` | src/utils/getSitemapDates.ts:52-86 | The walk from an empty map, URL by URL, in terms of the last contributing file. |
| `SitemapScan.InSitemapIff` | src/utils/getSitemapDates.ts:52-86 | A URL is in the sitemap exactly when some file of the listing sets it. |
| `SitemapScan.SelectedFileListed` | src/utils/getSitemapDates.ts:64-79 | Every reachable selected file has its URL in the sitemap. |
| `RouteAgreement.JoinedRouteIsFlatIff` | src/utils/getPath.ts:27-31 | A joined route equals the flat route `prefix/posts/slug` exactly when it has no category components. |
| `RouteAgreement.SitemapMatchesRouteIffFlat` | src/utils/getSitemapDates.ts:37-50 | Take an id and a file naming the same post: same locale, and the id's last part is the scanner's slug of the file name. Then the sitemap URL equals the base, the `getPath` route (src/utils/getPath.ts) and a slash exactly when the file has no category directories. The two sides may slugify with different functions; only `getPath`'s is assumed never to yield a slash. |
| `Strings.Split` | src/utils/getPath.ts:15 | Splitting yields at least one part, and no part contains the separator. |
| `Strings.SplitConcat` | src/utils/getPath.ts:15 | Splitting around a separator splits each side independently. |
| `Strings.JoinSplit` | src/utils/getPath.ts:24 | Joining the parts of a split gives the original string back. |
| `Strings.LastPart` | src/utils/getPath.ts:24-25 | The last part holds no separator and is the whole string when there is none. When the separator occurs, the string ends with a separator followed by the last part, so it is the text after the LAST separator. |
| `Strings.RemoveFirst` | src/utils/getPath.ts:14 | Without an occurrence the string is unchanged. Otherwise the pattern is removed at its first occurrence and nothing else changes. |
| `Strings.ReplaceChar` | src/utils/getSitemapDates.ts:39 | Every back-slash becomes a slash, position by position, and nothing else changes. |
| `Strings.StripSuffix` | src/utils/getSitemapDates.ts:38 | A present suffix is removed once; otherwise the string is unchanged. |
| `Strings.Trim` | src/utils/getSitemapDates.ts:25 | The trimmed text has no white space at either end, and is empty exactly when the input is all white space. |
| `Strings.TrimIsSlice` | src/utils/getSitemapDates.ts:25 | The trimmed text is one contiguous slice of the input, with only white space before and after it. |

## Left out

- File-system I/O (`existsSync`, `readdirSync`, `readFileSync`) is replaced
  by an in-memory directory tree. Only the root's existence is checked, as
  in the source, because every child the listing returns exists.
- Both slugify functions and JavaScript `Date` parsing are parameters, so
  the model states nothing about their output.
  `RouteAgreement.SitemapMatchesRouteIffFlat` assumes three things:
  - the slugify of `getPath` never yields a slash;
  - the id's locale is the locale the scanner reads from the file path;
  - the id's last part is the scanner's slug of the file name.
- `SitemapScan.GetSitemapDates` is total and always returns a map. In the
  source, neither `scanDir` nor `getSitemapDates` catches errors, so the
  whole call throws in these cases, which the model does not represent:
  - `readFileSync` fails on an unreadable `.md` file, or on a symbolic link
    to a directory named `*.md`, which `isDirectory()` reports as not a
    directory;
  - `readdirSync` fails when the blog path exists but is a file.
- A `Dir` entry stands only for a real directory. Symbolic links to
  directories are never descended by the source, and the model has no
  entry for them.
- `path.join` is modelled as `dir + "/" + name`. Its normalisation of `..`,
  `.` and doubled separators is not modelled.
- `path.resolve(process.cwd(), BLOG_PATH)` is modelled as the working
  directory, a slash and `src/data/blog`. The working directory is taken to
  be absolute and normalised.
- `I18n.NatToString` states the digit shape of the interpolated count, not its
  value, because number formatting is not modelled. It also does not follow
  JavaScript's formatting of large numbers. From 1e21 upward, `${min}`
  prints exponent notation such as `1e+21`. Whole numbers above 2^53 are
  not exact doubles, so they print rounded.
- `I18n.T`: `readingTime` takes a natural number. The source accepts any
  JavaScript number, but fractional and negative minute counts are not
  modelled.
- The `CollectionEntry` type of the content collection is reduced to the
  fields the core reads, `id` and `filePath`.
- `getSitemapDates` returns a JavaScript `Map`, whose iteration order
  follows first insertion. The model keeps only the key-to-date mapping,
  not the insertion order.
- The regular expressions are modelled for the three fixed keys and the
  fence pattern only. There is no general regular-expression engine.

=== FILE: frontmatter.dfy ===
/** The frontmatter reader of the sitemap date scanner
    (src/utils/getSitemapDates.ts, `parseFrontmatter`). It is three
    regular-expression lookups, not a YAML parser; the functions below follow
    the matching the JavaScript engine performs. */
module Frontmatter {
  import opened Options
  import opened Strings

  /** What the reader extracts from one file. */
  datatype PostMeta = PostMeta(pubDatetime: string, modDatetime: Option<string>, draft: Option<bool>)

  const OPEN: string := "---\n"
  const CLOSE: string := "\n---"

  /** `content.match(/^---\n([\s\S]*?)\n---/)[1]`: the text between an
      opening `---` line at the very start and the FIRST later `\n---`. */
  function Block(content: string): (r: Option<string>)
    ensures r.Some? ==> StartsWith(content, OPEN) && OccursAt(content, 4 + |r.value|, CLOSE)
    ensures r.Some? ==> content[4..4 + |r.value|] == r.value
    ensures r.Some? ==> forall j :: 4 <= j < 4 + |r.value| ==> !OccursAt(content, j, CLOSE)
    ensures r.None? <==> !StartsWith(content, OPEN) || forall j :: 4 <= j ==> !OccursAt(content, j, CLOSE)
  {
    if !StartsWith(content, OPEN) then None
    else match FindFrom(content, CLOSE, 4)
      case None => None
      case Some(j) => Some(content[4..j])
  }

  /** First index at or after `i` that is not white space (`|s|` if none):
      where the greedy `\s*` stops. */
  function SkipSpace(s: string, i: nat): (r: nat)
    requires i <= |s|
    ensures i <= r <= |s|
    ensures forall k :: i <= k < r ==> IsSpace(s[k])
    ensures r < |s| ==> !IsSpace(s[r])
    decreases |s| - i
  {
    if i < |s| && IsSpace(s[i]) then SkipSpace(s, i + 1) else i
  }

  /** First line terminator at or after `i` (`|s|` if none): where the greedy
      `(.+)` stops. */
  function LineEnd(s: string, i: nat): (r: nat)
    requires i <= |s|
    ensures i <= r <= |s|
    ensures forall k :: i <= k < r ==> !IsLineTerminator(s[k])
    ensures r < |s| ==> IsLineTerminator(s[r])
    decreases |s| - i
  {
    if i < |s| && !IsLineTerminator(s[i]) then LineEnd(s, i + 1) else i
  }

  /** Largest `k` in `[lo, hi)` with `s[k]` not a line terminator: the point
      the backtracking `\s*` gives back to `(.+)` when nothing but white space
      follows the key. */
  function LastNonTerminator(s: string, lo: nat, hi: nat): (r: Option<nat>)
    requires lo <= hi <= |s|
    ensures r.Some? ==> lo <= r.value < hi && !IsLineTerminator(s[r.value])
    ensures r.Some? ==> forall k :: r.value < k < hi ==> IsLineTerminator(s[k])
    ensures r.None? ==> forall k :: lo <= k < hi ==> IsLineTerminator(s[k])
    decreases hi - lo
  {
    if lo == hi then None
    else if !IsLineTerminator(s[hi - 1]) then Some(hi - 1)
    else LastNonTerminator(s, lo, hi - 1)
  }

  /** The capture group of `fm.match(/key:\s*(.+)/)`, before trimming. The
      engine tries the first occurrence of `key:` first; `\s*` takes all the
      white space (line breaks included) and `(.+)` takes the rest of that
      line. Only when the text ends in white space does `\s*` give characters
      back, and then the capture is white space only. When even that fails no
      later occurrence can match, because a later `key:` would have to lie
      inside that trailing white space. */
  function Capture(fm: string, key: string): (r: Option<string>)
    ensures r.Some? ==> |r.value| > 0 && forall k :: 0 <= k < |r.value| ==> !IsLineTerminator(r.value[k])
    ensures FindFrom(fm, key + ":", 0).None? ==> r.None?
    ensures r.Some? && SkipSpace(fm, FindFrom(fm, key + ":", 0).value + |key| + 1) == |fm| ==>
      forall k :: 0 <= k < |r.value| ==> IsSpace(r.value[k])
  {
    match FindFrom(fm, key + ":", 0)
    case None => None
    case Some(i) =>
      var p := i + |key| + 1;
      var q := SkipSpace(fm, p);
      if q < |fm| then
        var e := LineEnd(fm, q);
        assert !IsLineTerminator(fm[q]);
        Some(fm[q..e])
      else match LastNonTerminator(fm, p, q)
        case None => None
        case Some(k) =>
          var e := LineEnd(fm, k);
          assert forall j :: 0 <= j < e - k ==> fm[k..e][j] == fm[k + j];
          Some(fm[k..e])
  }

  /** The capture in terms of positions: when `key:` first occurs at `i`,
      white space runs up to `q`, and the line runs from `q` to `e`, the
      capture is `fm[q..e]`. */
  lemma CaptureAt(fm: string, key: string, i: nat, q: nat, e: nat)
    requires OccursAt(fm, i, key + ":")
    requires forall j :: 0 <= j < i ==> !OccursAt(fm, j, key + ":")
    requires i + |key| + 1 <= q < e <= |fm|
    requires forall k :: i + |key| + 1 <= k < q ==> IsSpace(fm[k])
    requires !IsSpace(fm[q])
    requires forall k :: q <= k < e ==> !IsLineTerminator(fm[k])
    requires e == |fm| || IsLineTerminator(fm[e])
    ensures Capture(fm, key) == Some(fm[q..e])
  {
    FirstOccurrence(fm, key + ":", i);
    assert SkipSpace(fm, i + |key| + 1) == q;
    assert LineEnd(fm, q) == e;
  }

  /** The value of a key is read from the line of its first occurrence: after
      `key:` and any white space, the rest of that line is captured, and the
      stored value is its trimmed text. */
  lemma KeyLineCapture(pre: string, key: string, ws: string, v: string, rest: string)
    requires forall j :: 0 <= j < |pre| ==> !OccursAt(pre + key + ":" + ws + v + rest, j, key + ":")
    requires forall k :: 0 <= k < |ws| ==> IsSpace(ws[k])
    requires |v| > 0 && !IsSpace(v[0])
    requires forall k :: 0 <= k < |v| ==> !IsLineTerminator(v[k])
    requires rest == "" || IsLineTerminator(rest[0])
    ensures Capture(pre + key + ":" + ws + v + rest, key) == Some(v)
    ensures Value(pre + key + ":" + ws + v + rest, key) == Some(Trim(v))
  {
    var a := pre + key + ":";
    var b := a + ws;
    var c := b + v;
    var fm := c + rest;
    assert fm == pre + key + ":" + ws + v + rest;
    assert fm[..|c|] == c;
    assert fm[|pre|..|a|] == a[|pre|..] == key + ":";
    forall k | |a| <= k < |b|
      ensures IsSpace(fm[k])
    {
      assert fm[k] == b[k] == ws[k - |a|];
    }
    forall k | |b| <= k < |c|
      ensures !IsLineTerminator(fm[k])
    {
      assert fm[k] == c[k] == v[k - |b|];
    }
    assert fm[|b|] == v[0];
    assert |c| < |fm| ==> fm[|c|] == rest[0];
    assert fm[|b|..|c|] == v;
    CaptureAt(fm, key, |pre|, |b|, |c|);
  }

  /** An occurrence with none before it is the one `indexOf` finds. */
  lemma FirstOccurrence(s: string, pat: string, i: nat)
    requires OccursAt(s, i, pat)
    requires forall j :: 0 <= j < i ==> !OccursAt(s, j, pat)
    ensures FindFrom(s, pat, 0) == Some(i)
  {
  }

  /** When a key is followed only by white space, the capture (if any) is
      blank, so its trimmed value is empty. */
  lemma BlankTailCapture(fm: string, key: string)
    requires FindFrom(fm, key + ":", 0).Some?
    requires SkipSpace(fm, FindFrom(fm, key + ":", 0).value + |key| + 1) == |fm|
    ensures Capture(fm, key).Some? ==> Trim(Capture(fm, key).value) == ""
  {
    if Capture(fm, key).Some? {
      TrimAllSpace(Capture(fm, key).value);
    }
  }

  /** The trimmed value the source stores for a key, if the pattern matched. */
  function Value(fm: string, key: string): (r: Option<string>)
    ensures r.Some? ==> |r.value| == 0 || (!IsSpace(r.value[0]) && !IsSpace(r.value[|r.value| - 1]))
    ensures r.None? <==> Capture(fm, key).None?
    ensures r.Some? ==> r.value == Trim(Capture(fm, key).value)
  {
    match Capture(fm, key)
    case None => None
    case Some(c) => Some(Trim(c))
  }

  /** `draftMatch ? draftMatch[1].trim() === "true" : undefined`: only the
      exact text `true` sets the flag, and a missing key leaves it unset. */
  function DraftFlag(v: Option<string>): (r: Option<bool>)
    ensures r == Some(true) <==> v == Some("true")
    ensures r.None? <==> v.None?
  {
    match v
    case None => None
    case Some(d) => Some(d == "true")
  }

  /** `parseFrontmatter`: null without a frontmatter block or without a
      non-blank `pubDatetime`; otherwise the three extracted fields. */
  function ParseFrontmatter(content: string): (r: Option<PostMeta>)
    ensures r.Some? <==> (Block(content).Some?
                          && Value(Block(content).value, "pubDatetime").Some?
                          && Value(Block(content).value, "pubDatetime").value != "")
    ensures r.Some? ==> Some(r.value.pubDatetime) == Value(Block(content).value, "pubDatetime")
    ensures r.Some? ==> var pub := r.value.pubDatetime;
      pub != "" && !IsSpace(pub[0]) && !IsSpace(pub[|pub| - 1])
    ensures r.Some? ==> (r.value.draft == Some(true) <==> Value(Block(content).value, "draft") == Some("true"))
    ensures r.Some? ==> (r.value.draft.None? <==> Capture(Block(content).value, "draft").None?)
    ensures r.Some? ==> r.value.modDatetime == Value(Block(content).value, "modDatetime")
  {
    match Block(content)
    case None => None
    case Some(fm) =>
      var pub := Value(fm, "pubDatetime");
      var mod := Value(fm, "modDatetime");
      var draft := DraftFlag(Value(fm, "draft"));
      if pub.None? || pub.value == "" then None
      else Some(PostMeta(pub.value, mod, draft))
  }

  /** A `pubDatetime:` key followed by nothing but white space makes the whole
      file unreadable as metadata. */
  lemma BlankPubDatetimeIsNull(content: string)
    requires Block(content).Some?
    requires FindFrom(Block(content).value, "pubDatetime:", 0).Some?
    requires var fm := Block(content).value;
      SkipSpace(fm, FindFrom(fm, "pubDatetime:", 0).value + |"pubDatetime"| + 1) == |fm|
    ensures ParseFrontmatter(content).None?
  {
    assert "pubDatetime" + ":" == "pubDatetime:";
    BlankTailCapture(Block(content).value, "pubDatetime");
  }

  /** `meta.modDatetime || meta.pubDatetime`: an empty modification date
      counts as absent. */
  function LastmodText(meta: PostMeta): (r: string)
    ensures meta.modDatetime.Some? && meta.modDatetime.value != "" ==> r == meta.modDatetime.value
    ensures (meta.modDatetime.None? || meta.modDatetime.value == "") ==> r == meta.pubDatetime
    ensures meta.pubDatetime != "" ==> r != ""
  {
    match meta.modDatetime
    case Some(m) => if m != "" then m else meta.pubDatetime
    case None => meta.pubDatetime
  }

  /** A file that does not start with the opening fence is never read as
      having metadata, whatever follows. */
  lemma NoFenceNoMeta(content: string)
    requires !StartsWith(content, OPEN)
    ensures ParseFrontmatter(content).None?
  {
  }

  /** A fenced block whose text holds no closing fence is found whole,
      whatever follows the closing fence. */
  lemma FencedBlock(fm: string, rest: string)
    requires forall j :: 4 <= j < 4 + |fm| ==> !OccursAt(OPEN + fm + CLOSE, j, CLOSE)
    ensures Block(OPEN + fm + CLOSE + rest) == Some(fm)
  {
    var c := OPEN + fm + CLOSE + rest;
    var d := OPEN + fm + CLOSE;
    assert c[..|d|] == d;
    forall j | 4 <= j < 4 + |fm| ensures !OccursAt(c, j, CLOSE) {
      assert !OccursAt(d, j, CLOSE);
      assert c[j..j + 4] == c[..|d|][j..j + 4] == d[j..j + 4];
    }
    assert OccursAt(c, 4 + |fm|, CLOSE);
    assert c[4..4 + |fm|] == fm;
  }

  /** The block ends at the first closing fence: text after it, even a second
      `pubDatetime`, never changes the result. */
  lemma LaterTextIgnored(fm: string, rest: string)
    requires forall j :: 4 <= j < 4 + |fm| ==> !OccursAt(OPEN + fm + CLOSE, j, CLOSE)
    ensures Block(OPEN + fm + CLOSE + rest) == Some(fm)
    ensures ParseFrontmatter(OPEN + fm + CLOSE + rest) == ParseFrontmatter(OPEN + fm + CLOSE)
  {
    FencedBlock(fm, rest);
    FencedBlock(fm, "");
    assert OPEN + fm + CLOSE + "" == OPEN + fm + CLOSE;
  }
}

=== FILE: i18n.dfy ===
/** Locale resolution, localized routes and the UI string table of the blog
    (src/i18n/index.ts). The locale set is closed, so every lookup keyed by a
    `Locale` is total by construction. */
module I18n {
  import opened Options
  import opened Strings
  import Seqs

  /** `LOCALES = ["en", "zh"]`. */
  datatype Locale = EN | ZH

  const LOCALES: seq<Locale> := [EN, ZH]
  const DEFAULT_LOCALE: Locale := EN

  /** The tag a locale is written as in ids, paths and routes. */
  function Tag(l: Locale): string {
    match l
    case EN => "en"
    case ZH => "zh"
  }

  /** `LOCALES.includes(s)`, returning the locale that matched. */
  function ParseLocale(s: string): (r: Option<Locale>)
    ensures r.Some? ==> Tag(r.value) == s
    ensures r.None? <==> (forall l: Locale :: Tag(l) != s)
  {
    if s == "en" then Some(EN)
    else if s == "zh" then Some(ZH)
    else None
  }

  /** `id.split("/")[0]`: everything before the first slash. */
  function FirstSegment(id: string): (r: string)
    ensures r <= id && '/' !in r
    ensures |r| < |id| ==> id[|r|] == '/'
  {
    Split(id, '/')[0]
  }

  /** `getLangFromId`: the leading locale tag of an id, `en` when there is
      none. An id is Chinese exactly when it is `zh` or starts with `zh/`. */
  function GetLangFromId(id: string): (r: Locale)
    ensures r in LOCALES
    ensures r == ZH <==> (id == "zh" || StartsWith(id, "zh/"))
    ensures r == EN <==> !(id == "zh" || StartsWith(id, "zh/"))
  {
    var seg := FirstSegment(id);
    assert seg == "zh" <==> (id == "zh" || StartsWith(id, "zh/")) by {
      if StartsWith(id, "zh/") {
        assert id[..2] == "zh" && id[2] == '/';
        assert FindChar(id, '/') == Some(2);
      }
    }
    match ParseLocale(seg)
    case Some(l) => l
    case None => DEFAULT_LOCALE
  }

  /** `getSlugFromId`: the id without its leading locale tag and slash. A bare
      tag (`"zh"`) slices past its end and yields the empty string. */
  function GetSlugFromId(id: string): (r: string)
    ensures (id == "en" || id == "zh") ==> r == ""
    ensures (StartsWith(id, "en/") || StartsWith(id, "zh/")) ==> id == id[..3] + r
    ensures !(id == "en" || id == "zh" || StartsWith(id, "en/") || StartsWith(id, "zh/")) ==> r == id
  {
    var seg := FirstSegment(id);
    TaggedFirstSegment(id);
    if ParseLocale(seg).Some? then
      (if |seg| + 1 <= |id| then id[|seg| + 1..] else "")
    else id
  }

  /** The first segment is a locale tag exactly when the id is a bare tag or
      starts with a tag and a slash. */
  lemma TaggedFirstSegment(id: string)
    ensures (FirstSegment(id) == "en" || FirstSegment(id) == "zh") <==>
            (id == "en" || id == "zh" || StartsWith(id, "en/") || StartsWith(id, "zh/"))
  {
    if StartsWith(id, "en/") || StartsWith(id, "zh/") {
      assert id[2] == '/' && '/' !in id[..2];
      FindCharFirst(id, '/', 2);
    }
  }

  /** An id built from a locale and a slug gives both back. */
  lemma IdRoundTrip(l: Locale, s: string)
    ensures GetLangFromId(Tag(l) + "/" + s) == l
    ensures GetSlugFromId(Tag(l) + "/" + s) == s
  {
    var id := Tag(l) + "/" + s;
    assert id[..3] == Tag(l) + "/";
  }

  /** An id whose first segment is not a locale tag is its own slug and is
      English. */
  lemma UntaggedId(id: string)
    requires ParseLocale(FirstSegment(id)).None?
    ensures GetSlugFromId(id) == id
    ensures GetLangFromId(id) == DEFAULT_LOCALE
  {
    var seg := FirstSegment(id);
    if StartsWith(id, "en/") || StartsWith(id, "zh/") {
      FindCharFirst(id, '/', 2);
      assert seg == id[..2];
    }
  }

  /** A tagged id splits back into its tag and slug. */
  lemma TaggedIdSplits(id: string)
    requires StartsWith(id, "en/") || StartsWith(id, "zh/")
    ensures id == Tag(GetLangFromId(id)) + "/" + GetSlugFromId(id)
  {
  }

  /** A blog post as the content collection supplies it. */
  datatype Post = Post(id: string, filePath: Option<string>)

  /** `getPostsByLang`: the posts of one locale, in their original order. */
  function GetPostsByLang(posts: seq<Post>, lang: Locale): (r: seq<Post>)
    ensures forall i :: 0 <= i < |r| ==> GetLangFromId(r[i].id) == lang
    ensures forall p :: p in posts && GetLangFromId(p.id) == lang ==> p in r
    ensures Seqs.IsSubsequence(r, posts)
  {
    Seqs.FilterIsSubsequence(posts, (p: Post) => GetLangFromId(p.id) == lang);
    Seqs.Filter(posts, (p: Post) => GetLangFromId(p.id) == lang)
  }

  /** Filtering by locale commutes with concatenation: a post never changes
      position relative to posts of the other part. */
  lemma PostsByLangConcat(a: seq<Post>, b: seq<Post>, lang: Locale)
    ensures GetPostsByLang(a + b, lang) == GetPostsByLang(a, lang) + GetPostsByLang(b, lang)
  {
    Seqs.FilterConcat(a, b, (p: Post) => GetLangFromId(p.id) == lang);
  }

  /** The two locales partition the posts: every post is in exactly one of
      the two lists. */
  lemma PostsByLangPartition(posts: seq<Post>)
    ensures |GetPostsByLang(posts, EN)| + |GetPostsByLang(posts, ZH)| == |posts|
    ensures multiset(GetPostsByLang(posts, EN)) + multiset(GetPostsByLang(posts, ZH)) == multiset(posts)
  {
    Seqs.FilterPartition(posts, (p: Post) => GetLangFromId(p.id) == EN,
                         (p: Post) => GetLangFromId(p.id) == ZH);
  }

  /** `getLocalePrefix`: the route prefix, empty for the default locale. */
  function LocalePrefix(l: Locale): (r: string)
    ensures r == "" <==> l == DEFAULT_LOCALE
    ensures r != "" ==> r[0] == '/' && r[1..] == Tag(l)
  {
    if l == DEFAULT_LOCALE then "" else "/" + Tag(l)
  }

  /** `getPostUrl`: the route of a post. */
  function PostUrl(l: Locale, slug: string): (r: string)
    ensures r == LocalePrefix(l) + "/posts/" + slug
    ensures |r| > 0 && r[0] == '/'
    ensures EndsWith(r, "/posts/" + slug)
  {
    var r := LocalePrefix(l) + "/posts/" + slug;
    assert r[|r| - |"/posts/" + slug|..] == "/posts/" + slug;
    r
  }

  /** Distinct locales or slugs never share a route. */
  lemma PostUrlInjective(a: Locale, s: string, b: Locale, t: string)
    requires PostUrl(a, s) == PostUrl(b, t)
    ensures a == b && s == t
  {
    var u := PostUrl(a, s);
    assert u[1] == (if a == EN then 'p' else 'z');
    assert u[1] == (if b == EN then 'p' else 'z');
    var h := LocalePrefix(a) + "/posts/";
    assert u == h + s && u == h + t;
    assert s == u[|h|..] == t;
  }

  /** One locale's UI strings. Every entry has the same fields, which the
      record type enforces; two fields are templates over an argument. */
  datatype UITranslations = UITranslations(
    langLabel: string,
    langName: string,
    posts: string,
    tags: string,
    about: string,
    archives: string,
    search: string,
    allPosts: string,
    allPostsDesc: string,
    recentPosts: string,
    featured: string,
    tagPrefix: string,
    tagDesc: string -> string,
    archivesDesc: string,
    searchDesc: string,
    skipToContent: string,
    socialLinks: string,
    openMenu: string,
    closeMenu: string,
    readingTime: nat -> string)

  /** Decimal digits of a natural number (the `${min}` interpolation, for
      whole minutes). */
  function NatToString(n: nat): (r: string)
    ensures |r| >= 1
    ensures forall i :: 0 <= i < |r| ==> '0' <= r[i] <= '9'
  {
    var d := ['0', '1', '2', '3', '4', '5', '6', '7', '8', '9'];
    if n < 10 then [d[n]] else NatToString(n / 10) + [d[n % 10]]
  }

  const EN_TRANSLATIONS := UITranslations(
    "EN", "English", "Posts", "Tags", "About", "Archives", "Search",
    "All Posts", "All the articles I've posted.", "Recent Posts", "Featured", "Tag:",
    (tag: string) => "All the articles with the tag \"" + tag + "\".",
    "All the articles I've archived.", "Search any article ...", "Skip to content",
    "Social Links:", "Open Menu", "Close Menu",
    (min: nat) => NatToString(min) + " min read")

  const ZH_TRANSLATIONS := UITranslations(
    "中文", "中文", "文章", "标签", "关于", "归档", "搜索",
    "所有文章", "我发布过的所有文章。", "最新文章", "精选", "标签：",
    (tag: string) => "所有包含「" + tag + "」标签的文章。",
    "所有归档文章。", "搜索文章……", "跳到内容",
    "社交链接：", "打开菜单", "关闭菜单",
    (min: nat) => NatToString(min) + " 分钟阅读")

  /** `t` / `UI_TRANSLATIONS[lang]`: total on the closed locale set. */
  function T(l: Locale): (r: UITranslations)
    ensures r.langLabel != "" && r.langName != "" && r.posts != "" && r.tags != ""
    ensures r.about != "" && r.archives != "" && r.search != "" && r.allPosts != ""
    ensures r.allPostsDesc != "" && r.recentPosts != "" && r.featured != "" && r.tagPrefix != ""
    ensures r.archivesDesc != "" && r.searchDesc != "" && r.skipToContent != ""
    ensures r.socialLinks != "" && r.openMenu != "" && r.closeMenu != ""
  {
    match l
    case EN => EN_TRANSLATIONS
    case ZH => ZH_TRANSLATIONS
  }

  /** The two templates embed their argument in the sentence they build. */
  lemma TemplatesEmbedArgument(l: Locale, tag: string, min: nat)
    ensures exists i: nat :: OccursAt(T(l).tagDesc(tag), i, tag)
    ensures OccursAt(T(l).readingTime(min), 0, NatToString(min))
  {
    var lead := if l == EN then "All the articles with the tag \"" else "所有包含「";
    var s := T(l).tagDesc(tag);
    assert s[|lead|..|lead| + |tag|] == tag;
    assert OccursAt(s, |lead|, tag);
  }

  /** `getLangLabel`: the switcher label of a locale. */
  function GetLangLabel(l: Locale): (r: string)
    ensures l == EN ==> r == "EN"
    ensures l == ZH ==> r == "中文"
  {
    T(l).langLabel
  }

  /** The labels tell the locales apart. */
  lemma LangLabelInjective(a: Locale, b: Locale)
    requires GetLangLabel(a) == GetLangLabel(b)
    ensures a == b
  {
  }
}

=== FILE: path.dfy ===
/** The route builder for a post (src/utils/getPath.ts). `BLOG_PATH` comes
    from a configuration module outside this model and `slugifyStr` comes
    from the local `./slugify` module, which is defined outside the modelled
    files, so both are parameters. */
module PostPath {
  import opened Options
  import opened Strings
  import opened I18n
  import Seqs

  /** A path segment that names a public category directory. */
  predicate KeepSegment(seg: string) {
    seg != "" && !StartsWith(seg, "_") && ParseLocale(seg).None?
  }

  /** The segments of `filePath` that survive the three filters and the
      dropped filename, before slugification. */
  function RawDirSegments(filePath: string, blogPath: string): (r: seq<string>)
    ensures forall i :: 0 <= i < |r| ==>
      r[i] != "" && !StartsWith(r[i], "_") && r[i] != "en" && r[i] != "zh"
    ensures Seqs.IsSubsequence(r, Split(RemoveFirst(filePath, blogPath), '/'))
    ensures var kept := Seqs.Filter(Split(RemoveFirst(filePath, blogPath), '/'), KeepSegment);
      if |kept| == 0 then r == [] else r + [kept[|kept| - 1]] == kept
  {
    var parts := Split(RemoveFirst(filePath, blogPath), '/');
    var nonEmpty := Seqs.Filter(parts, (p: string) => p != "");
    var isPublic := Seqs.Filter(nonEmpty, (p: string) => !StartsWith(p, "_"));
    var notLocale := Seqs.Filter(isPublic, (p: string) => ParseLocale(p).None?);
    FiltersAreKeepSegment(parts);
    Seqs.FilterIsSubsequence(parts, KeepSegment);
    var r := Seqs.DropLast(notLocale);
    Seqs.SubsequenceReflexive(notLocale);
    Seqs.SubsequencePrefix(notLocale, notLocale, |r|);
    assert r == notLocale[..|r|];
    Seqs.SubsequenceTransitive(r, notLocale, parts);
    r
  }

  /** `slice(0, -1)` drops the last KEPT segment, not the file name as such:
      a file whose own name starts with `_` is filtered out first, so the
      category directory above it is the one dropped. */
  lemma PrivateNameDropsCategory(blogPath: string, cat: string, name: string)
    requires KeepSegment(cat) && '/' !in cat
    requires StartsWith(name, "_") && '/' !in name
    ensures RawDirSegments(blogPath + ("/" + cat + "/" + name), blogPath) == []
  {
    var rest := "/" + cat + "/" + name;
    RemoveFirstAtStart(blogPath, rest);
    ThreePartJoin(cat, name);
    SplitJoin(["", cat, name], '/');
    PrivateNameFilter(cat, name);
    OneKeptNoDirs(blogPath + rest, blogPath, cat);
  }

  /** With a single kept segment, that segment is the one dropped. */
  lemma OneKeptNoDirs(filePath: string, blogPath: string, last: string)
    requires Seqs.Filter(Split(RemoveFirst(filePath, blogPath), '/'), KeepSegment) == [last]
    ensures RawDirSegments(filePath, blogPath) == []
  {
    var r := RawDirSegments(filePath, blogPath);
    assert r + [last] == [last];
  }

  lemma ThreePartJoin(cat: string, name: string)
    ensures Join(["", cat, name], '/') == "/" + cat + "/" + name
  {
    var xs := ["", cat, name];
    assert xs[1..] == [cat, name];
    assert xs[1..][1..] == [name];
  }

  lemma PrivateNameFilter(cat: string, name: string)
    requires KeepSegment(cat) && StartsWith(name, "_")
    ensures Seqs.Filter(["", cat, name], KeepSegment) == [cat]
  {
    assert !KeepSegment("") && !KeepSegment(name);
    assert Seqs.Filter([name], KeepSegment) == [] by {
      assert [name][1..] == [];
    }
    assert Seqs.Filter([cat, name], KeepSegment) == [cat] by {
      assert [cat, name][1..] == [name];
    }
    assert ["", cat, name][1..] == [cat, name];
  }

  /** The three chained filters are one filter by `KeepSegment`. */
  lemma FiltersAreKeepSegment(parts: seq<string>)
    ensures Seqs.Filter(Seqs.Filter(Seqs.Filter(parts, (p: string) => p != ""),
                                    (p: string) => !StartsWith(p, "_")),
                        (p: string) => ParseLocale(p).None?)
         == Seqs.Filter(parts, KeepSegment)
  {
    Seqs.FilterThrice(parts, (p: string) => p != "", (p: string) => !StartsWith(p, "_"),
                      (p: string) => ParseLocale(p).None?, KeepSegment);
  }

  /** `pathSegments`: the slugified category directories, absent when the
      post has no file path. */
  function DirSegments(filePath: Option<string>, blogPath: string, slugify: string -> string): (r: seq<string>)
    ensures filePath.None? ==> r == []
    ensures filePath.Some? ==> |r| == |RawDirSegments(filePath.value, blogPath)|
    ensures filePath.Some? ==> forall i :: 0 <= i < |r| ==> r[i] == slugify(RawDirSegments(filePath.value, blogPath)[i])
  {
    match filePath
    case None => []
    case Some(fp) => Seqs.Map(RawDirSegments(fp, blogPath), slugify)
  }

  /** `localePrefix + basePath`: the first component of the route. */
  function RouteHead(id: string, includeBase: bool): string {
    LocalePrefix(GetLangFromId(id)) + (if includeBase then "/posts" else "")
  }

  /** `getPath`. The `slice(-1)` of the id's parts is a one-element array,
      which `join` prints as its only element, so the slug is the last
      `/`-part of the id. */
  function GetPath(id: string, filePath: Option<string>, includeBase: bool,
                   blogPath: string, slugify: string -> string): (r: string)
    ensures StartsWith(r, RouteHead(id, includeBase) + "/")
    ensures |r| > 0 && r[0] == '/'
    ensures EndsWith(r, "/" + LastPart(id, '/'))
    ensures DirSegments(filePath, blogPath, slugify) == [] ==>
      r == RouteHead(id, includeBase) + "/" + LastPart(id, '/')
    ensures r == Join([RouteHead(id, includeBase)] + DirSegments(filePath, blogPath, slugify) + [LastPart(id, '/')], '/')
  {
    var lang := GetLangFromId(id);
    var localePrefix := LocalePrefix(lang);
    var pathSegments: Option<seq<string>> :=
      match filePath
      case None => None
      case Some(fp) => Some(Seqs.Map(RawDirSegments(fp, blogPath), slugify));
    var basePath := if includeBase then "/posts" else "";
    var blogId := Split(id, '/');
    var slug := blogId[|blogId| - 1];
    var r :=
      if pathSegments.None? || |pathSegments.value| < 1 then
        Join([localePrefix + basePath, slug], '/')
      else
        Join([localePrefix + basePath] + pathSegments.value + [slug], '/');
    var segs := DirSegments(filePath, blogPath, slugify);
    assert pathSegments.None? ==> segs == [];
    assert pathSegments.Some? ==> pathSegments.value == segs;
    assert [localePrefix + basePath] + [] + [slug] == [localePrefix + basePath, slug];
    GetPathShape(localePrefix + basePath, segs, slug);
    r
  }

  /** The shape of a joined route: the head, a slash, the categories and the
      slug, with the slug after the final slash. */
  lemma GetPathShape(head: string, segs: seq<string>, slug: string)
    ensures var r := Join([head] + segs + [slug], '/');
      && r == head + "/" + Join(segs + [slug], '/')
      && StartsWith(r, head + "/")
      && ((|head| == 0 || head[0] == '/') ==> r[0] == '/')
      && EndsWith(r, "/" + slug)
      && (segs == [] ==> r == head + "/" + slug)
  {
    Strings.JoinConcat([head], segs + [slug], '/');
    assert [head] + segs + [slug] == [head] + (segs + [slug]);
    var r := Join([head] + segs + [slug], '/');
    if segs == [] {
      assert segs + [slug] == [slug];
    } else {
      Strings.JoinConcat([head] + segs, [slug], '/');
    }
    assert r[|r| - |"/" + slug|..] == "/" + slug;
    assert r[..|head + "/"|] == head + "/";
  }

  /** The route depends on the id only through its locale and last part. */
  lemma GetPathDependsOnLangAndSlug(id1: string, id2: string, filePath: Option<string>,
                                    includeBase: bool, blogPath: string, slugify: string -> string)
    requires GetLangFromId(id1) == GetLangFromId(id2)
    requires LastPart(id1, '/') == LastPart(id2, '/')
    ensures GetPath(id1, filePath, includeBase, blogPath, slugify)
         == GetPath(id2, filePath, includeBase, blogPath, slugify)
  {
  }

  /** Splitting a joined route whose categories and slug hold no slash. */
  lemma RouteComponents(head: string, segs: seq<string>, slug: string)
    requires forall k :: 0 <= k < |segs| ==> '/' !in segs[k]
    requires '/' !in slug
    ensures Split(Join([head] + segs + [slug], '/'), '/') == Split(head, '/') + segs + [slug]
    ensures CountChar(Join([head] + segs + [slug], '/'), '/') == CountChar(head, '/') + |segs| + 1
  {
    var tail := segs + [slug];
    GetPathShape(head, segs, slug);
    assert forall k :: 0 <= k < |tail| ==> '/' !in tail[k];
    Strings.SplitConcat(head, Join(tail, '/'), '/');
    Strings.SplitJoin(tail, '/');
    assert Split(head, '/') + tail == Split(head, '/') + segs + [slug];
    Strings.CountCharJoin(tail, '/');
    Strings.CountCharConcat(head + "/", Join(tail, '/'), '/');
    Strings.CountCharConcat(head, "/", '/');
  }

  /** When slugification never yields a slash, splitting the route on `/`
      gives the parts of the head followed by one component per category
      and one for the slug. */
  lemma GetPathComponents(id: string, filePath: Option<string>, includeBase: bool,
                          blogPath: string, slugify: string -> string)
    requires forall x :: '/' !in slugify(x)
    ensures Split(GetPath(id, filePath, includeBase, blogPath, slugify), '/')
         == Split(RouteHead(id, includeBase), '/') + DirSegments(filePath, blogPath, slugify) + [LastPart(id, '/')]
    ensures CountChar(GetPath(id, filePath, includeBase, blogPath, slugify), '/')
         == CountChar(RouteHead(id, includeBase), '/') + |DirSegments(filePath, blogPath, slugify)| + 1
  {
    RouteComponents(RouteHead(id, includeBase), DirSegments(filePath, blogPath, slugify), LastPart(id, '/'));
  }
}

=== FILE: route_agreement.dfy ===
/** How the page route built by `getPath` (src/utils/getPath.ts) relates to
    the URL the sitemap scanner builds for the same file
    (src/utils/getSitemapDates.ts, `buildUrlFromFile`). The scanner ignores
    category directories, so the two agree only for posts that sit directly
    in their locale directory. */
module RouteAgreement {
  import opened Options
  import opened Strings
  import opened I18n
  import opened PostPath
  import opened SitemapUrl

  /** Removing a common prefix. */
  lemma PrefixCancel(a: string, x: string, y: string)
    ensures a + x == a + y <==> x == y
  {
    if a + x == a + y {
      assert x == (a + x)[|a|..];
      assert y == (a + y)[|a|..];
    }
  }

  /** Removing a common suffix. */
  lemma SuffixCancel(x: string, y: string, a: string)
    ensures x + a == y + a <==> x == y
  {
    if x + a == y + a {
      assert x == (x + a)[..|x|];
      assert y == (y + a)[..|y|];
    }
  }

  /** The flat route holds one slash more than its head. */
  lemma FlatRouteCount(head: string, slug: string)
    requires '/' !in slug
    ensures CountChar(head + "/" + slug, '/') == CountChar(head, '/') + 1
  {
    CountCharConcat(head + "/", slug, '/');
    CountCharConcat(head, "/", '/');
    CountCharAbsent(slug, '/');
    assert CountChar("/", '/') == 1;
  }

  /** A joined route equals the flat route `pre/posts/slug` exactly when it
      has no category components: each category adds a slash. */
  lemma JoinedRouteIsFlatIff(pre: string, segs: seq<string>, slug: string)
    requires forall k :: 0 <= k < |segs| ==> '/' !in segs[k]
    requires '/' !in slug
    ensures Join([pre + "/posts"] + segs + [slug], '/') == pre + "/posts/" + slug <==> segs == []
  {
    var head := pre + "/posts";
    var route := Join([head] + segs + [slug], '/');
    var flat := head + "/" + slug;
    assert flat == pre + "/posts/" + slug;
    if segs == [] {
      GetPathShape(head, segs, slug);
      assert route == flat;
    } else {
      RouteComponents(head, segs, slug);
      FlatRouteCount(head, slug);
      assert CountChar(route, '/') != CountChar(flat, '/');
    }
  }

  /** The same comparison behind a base URL and with a closing slash. */
  lemma FramedRouteIsFlatIff(b: string, pre: string, segs: seq<string>, slug: string)
    requires forall k :: 0 <= k < |segs| ==> '/' !in segs[k]
    requires '/' !in slug
    ensures b + (pre + "/posts/" + slug) + "/" == b + Join([pre + "/posts"] + segs + [slug], '/') + "/"
            <==> segs == []
  {
    var post := pre + "/posts/" + slug;
    var route := Join([pre + "/posts"] + segs + [slug], '/');
    assert b + post + "/" == b + (post + "/");
    assert b + route + "/" == b + (route + "/");
    PrefixCancel(b, post + "/", route + "/");
    SuffixCancel(post, route, "/");
    JoinedRouteIsFlatIff(pre, segs, slug);
  }

  /** The sitemap URL of a post file is its page route (behind the base URL,
      with a closing slash) exactly when the file has no category
      directories: the scanner drops the categories `getPath` keeps. The two
      sides slugify with different functions: `getPath` with the `slugifyStr`
      it imports from `./slugify` (not part of this model), the scanner with
      its own call of the `slugify` library. The id and the file are assumed to name the same
      post: same locale, and the id's last part is the scanner's slug of the
      file name. */
  lemma SitemapMatchesRouteIffFlat(id: string, fp: string, blogPath: string, base: string,
                                   pathSlugify: string -> string, siteSlugify: string -> string)
    requires forall x :: '/' !in pathSlugify(x)
    requires GetLangFromId(id) == PathLocale(PathParts(fp))
    requires LastPart(id, '/') == FileSlug(PathParts(fp), siteSlugify)
    ensures BuildUrlFromFile(fp, base, siteSlugify)
              == StripSuffix(base, "/") + GetPath(id, Some(fp), true, blogPath, pathSlugify) + "/"
            <==> DirSegments(Some(fp), blogPath, pathSlugify) == []
  {
    var pre := LocalePrefix(GetLangFromId(id));
    var slug := LastPart(id, '/');
    var segs := DirSegments(Some(fp), blogPath, pathSlugify);
    assert RouteHead(id, true) == pre + "/posts";
    assert PostUrl(GetLangFromId(id), slug) == pre + "/posts/" + slug;
    FramedRouteIsFlatIff(StripSuffix(base, "/"), pre, segs, slug);
  }
}

=== FILE: sitemap_scan.dfy ===
/** The selection and merge rule of the sitemap date scanner
    (src/utils/getSitemapDates.ts, `getSitemapDates` / `scanDir`). The file
    system is an in-memory tree; slugification and date parsing are
    parameters. */
module SitemapScan {
  import opened Options
  import opened Strings
  import opened Frontmatter
  import opened SitemapUrl
  import I18n

  /** A directory entry as `readdirSync(..., { withFileTypes: true })` lists
      it, with a file's text in place of a later `readFileSync`. */
  datatype Entry =
    | File(name: string, content: string)
    | Dir(name: string, children: seq<Entry>)

  /** The caller's base URL and the two foreign operations: `slugify` and
      `new Date(text)` followed by the `isNaN(getTime())` check. */
  datatype Config<D> = Config(baseUrl: string, slugify: string -> string, parseDate: string -> Option<D>)

  /** `path.join(dir, name)` for a plain name. */
  function PathJoin(dir: string, name: string): string {
    dir + "/" + name
  }

  /** The scanner's own blog directory, relative to the working directory. */
  const BLOG_PATH: string := "src/data/blog"

  /** `path.resolve(process.cwd(), BLOG_PATH)` for an absolute, normalised
      working directory. */
  function BlogDir(cwd: string): string {
    PathJoin(cwd, BLOG_PATH)
  }

  /** Whether a markdown file passes every filter of the scan. */
  predicate Selected<D>(name: string, content: string, cfg: Config<D>) {
    && EndsWith(name, ".md")
    && !StartsWith(name, "_")
    && ParseFrontmatter(content).Some?
    && ParseFrontmatter(content).value.draft != Some(true)
    && cfg.parseDate(LastmodText(ParseFrontmatter(content).value)).Some?
  }

  /** The map entry one file adds: its URL and the parsed `modDatetime ||
      pubDatetime`, or nothing when the file is skipped. */
  function Contribution<D>(fullPath: string, name: string, content: string, cfg: Config<D>): (r: Option<(string, D)>)
    ensures r.Some? <==> Selected(name, content, cfg)
    ensures r.Some? ==> r.value.0 == BuildUrlFromFile(fullPath, cfg.baseUrl, cfg.slugify)
    ensures r.Some? ==> cfg.parseDate(LastmodText(ParseFrontmatter(content).value)) == Some(r.value.1)
  {
    if !(EndsWith(name, ".md") && !StartsWith(name, "_")) then None
    else match ParseFrontmatter(content)
      case None => None
      case Some(meta) =>
        if meta.draft == Some(true) then None
        else
          var url := BuildUrlFromFile(fullPath, cfg.baseUrl, cfg.slugify);
          match cfg.parseDate(LastmodText(meta))
          case None => None
          case Some(lastmod) => Some((url, lastmod))
  }

  /** Applies one contribution to the map: a selected file sets its URL,
      overwriting an earlier value; any other file changes nothing. */
  function Apply<D>(m: map<string, D>, c: Option<(string, D)>): (r: map<string, D>)
    ensures c.None? ==> r == m
    ensures c.Some? ==> r.Keys == m.Keys + {c.value.0} && r[c.value.0] == c.value.1
    ensures c.Some? ==> forall k :: k in m && k != c.value.0 ==> r[k] == m[k]
  {
    match c
    case None => m
    case Some(e) => m[e.0 := e.1]
  }

  /** One file's step of the walk. */
  function StepFile<D>(m: map<string, D>, path: string, name: string, content: string, cfg: Config<D>): map<string, D> {
    Apply(m, Contribution(path, name, content, cfg))
  }

  /** One entry of `scanDir`'s loop: a directory whose name starts with `_`
      is not entered, any other is scanned recursively, and a file takes its
      step. */
  function ScanEntry<D>(dir: string, e: Entry, cfg: Config<D>, m: map<string, D>): (r: map<string, D>)
    ensures m.Keys <= r.Keys
    decreases e, 1
  {
    match e
    case Dir(n, ch) => if StartsWith(n, "_") then m else ScanEntries(PathJoin(dir, n), ch, cfg, m)
    case File(n, c) => StepFile(m, PathJoin(dir, n), n, c, cfg)
  }

  /** `scanDir`: the entries in listing order, each updating the same map. */
  function ScanEntries<D>(dir: string, es: seq<Entry>, cfg: Config<D>, m: map<string, D>): (r: map<string, D>)
    ensures m.Keys <= r.Keys
    decreases es, 0
  {
    if |es| == 0 then m
    else ScanEntries(dir, es[1..], cfg, ScanEntry(dir, es[0], cfg, m))
  }

  /** A file the walk reaches, with the directory names on its way. */
  datatype FileRef = FileRef(path: string, dirs: seq<string>, name: string, content: string)

  /** The files one entry contributes to the walk's listing. Each file's
      path is `dir`, the directories entered below it and its name, joined
      with `/`. */
  function EntryFiles(dir: string, dirs: seq<string>, e: Entry): (r: seq<FileRef>)
    ensures forall i :: 0 <= i < |r| ==> dirs <= r[i].dirs
    ensures forall i, k :: 0 <= i < |r| && |dirs| <= k < |r[i].dirs| ==> !StartsWith(r[i].dirs[k], "_")
    ensures forall i :: 0 <= i < |r| ==> r[i].path == Join([dir] + r[i].dirs[|dirs|..] + [r[i].name], '/')
    decreases e, 1
  {
    match e
    case File(n, c) =>
      assert dirs[|dirs|..] == [];
      assert [dir] + [] + [n] == [dir, n];
      [FileRef(PathJoin(dir, n), dirs, n, c)]
    case Dir(n, ch) =>
      if StartsWith(n, "_") then []
      else
        var rs := VisibleFiles(PathJoin(dir, n), dirs + [n], ch);
        NestedPaths(dir, n, dirs, rs);
        rs
  }

  /** Reference listing: the files the walk reaches, in the order it reaches
      them, none of them below a directory whose name starts with `_`.
      `dirs` are the names already entered above `dir`, and each file's path
      is `dir`, the directories below it and its name, joined with `/`. */
  function VisibleFiles(dir: string, dirs: seq<string>, es: seq<Entry>): (r: seq<FileRef>)
    ensures forall i :: 0 <= i < |r| ==> dirs <= r[i].dirs
    ensures forall i, k :: 0 <= i < |r| && |dirs| <= k < |r[i].dirs| ==> !StartsWith(r[i].dirs[k], "_")
    ensures forall i :: 0 <= i < |r| ==> r[i].path == Join([dir] + r[i].dirs[|dirs|..] + [r[i].name], '/')
    decreases es, 0
  {
    if |es| == 0 then []
    else EntryFiles(dir, dirs, es[0]) + VisibleFiles(dir, dirs, es[1..])
  }

  /** Completeness of the listing: every file directly in `dir` is listed,
      and so is every file listed below a subdirectory whose name does not
      start with `_`. */
  lemma {:induction false} VisibleFilesComplete(dir: string, dirs: seq<string>, es: seq<Entry>, j: nat)
    requires j < |es|
    ensures es[j].File? ==>
      FileRef(PathJoin(dir, es[j].name), dirs, es[j].name, es[j].content) in VisibleFiles(dir, dirs, es)
    ensures es[j].Dir? && !StartsWith(es[j].name, "_") ==>
      forall f :: f in VisibleFiles(PathJoin(dir, es[j].name), dirs + [es[j].name], es[j].children) ==>
        f in VisibleFiles(dir, dirs, es)
    decreases j
  {
    if j > 0 {
      VisibleFilesComplete(dir, dirs, es[1..], j - 1);
      assert es[1..][j - 1] == es[j];
    }
  }

  /** Files listed below `dir/n` have, seen from `dir`, the path through `n`. */
  lemma NestedPaths(dir: string, n: string, dirs: seq<string>, rs: seq<FileRef>)
    requires forall i :: 0 <= i < |rs| ==> dirs + [n] <= rs[i].dirs
    requires forall i :: 0 <= i < |rs| ==>
      rs[i].path == Join([PathJoin(dir, n)] + rs[i].dirs[|dirs + [n]|..] + [rs[i].name], '/')
    ensures forall i :: 0 <= i < |rs| ==> rs[i].path == Join([dir] + rs[i].dirs[|dirs|..] + [rs[i].name], '/')
  {
    forall i | 0 <= i < |rs|
      ensures rs[i].path == Join([dir] + rs[i].dirs[|dirs|..] + [rs[i].name], '/')
    {
      var x := rs[i].dirs[|dirs| + 1..];
      assert rs[i].dirs[|dirs|..] == [n] + x;
      JoinThrough(dir, n, x, rs[i].name);
    }
  }

  /** Joining `dir/n` with the rest is joining `dir`, `n` and the rest. */
  lemma JoinThrough(dir: string, n: string, x: seq<string>, name: string)
    ensures Join([PathJoin(dir, n)] + x + [name], '/') == Join([dir] + ([n] + x) + [name], '/')
  {
    var tail := x + [name];
    Strings.JoinConcat([dir], [n] + tail, '/');
    Strings.JoinConcat([n], tail, '/');
    Strings.JoinConcat([PathJoin(dir, n)], tail, '/');
    assert [dir] + ([n] + x) + [name] == [dir] + ([n] + tail);
    assert [PathJoin(dir, n)] + x + [name] == [PathJoin(dir, n)] + tail;
  }

  /** The contribution of each listed file, in listing order. */
  function Contributions<D>(files: seq<FileRef>, cfg: Config<D>): (r: seq<Option<(string, D)>>)
    ensures |r| == |files|
    ensures forall i :: 0 <= i < |r| ==> r[i] == Contribution(files[i].path, files[i].name, files[i].content, cfg)
  {
    seq(|files|, i requires 0 <= i < |files| => Contribution(files[i].path, files[i].name, files[i].content, cfg))
  }

  lemma ContributionsConcat<D>(a: seq<FileRef>, b: seq<FileRef>, cfg: Config<D>)
    ensures Contributions(a + b, cfg) == Contributions(a, cfg) + Contributions(b, cfg)
  {
    var l := Contributions(a + b, cfg);
    var r := Contributions(a, cfg) + Contributions(b, cfg);
    assert forall i :: 0 <= i < |l| ==> l[i] == r[i];
  }

  /** Reference fold over a list of contributions, the last applied last. */
  function Fold<D>(cs: seq<Option<(string, D)>>, m: map<string, D>): map<string, D>
    decreases |cs|
  {
    if |cs| == 0 then m
    else Apply(Fold(cs[..|cs| - 1], m), cs[|cs| - 1])
  }

  /** Folding a concatenation folds the second list over the first's result. */
  lemma {:induction false} FoldConcat<D>(a: seq<Option<(string, D)>>, b: seq<Option<(string, D)>>, m: map<string, D>)
    ensures Fold(a + b, m) == Fold(b, Fold(a, m))
    decreases |b|
  {
    if |b| == 0 {
      assert a + b == a;
    } else {
      assert (a + b)[..|a + b| - 1] == a + b[..|b| - 1];
      assert (a + b)[|a + b| - 1] == b[|b| - 1];
      FoldConcat(a, b[..|b| - 1], m);
    }
  }

  /** One entry's step is the fold of the contributions of its files. */
  lemma {:induction false} EntryIsFold<D>(dir: string, dirs: seq<string>, e: Entry, cfg: Config<D>, m: map<string, D>)
    ensures ScanEntry(dir, e, cfg, m) == Fold(Contributions(EntryFiles(dir, dirs, e), cfg), m)
    decreases e, 1
  {
    match e {
      case File(n, c) =>
        FileIsFold(dir, dirs, n, c, cfg, m);
      case Dir(n, ch) =>
        if !StartsWith(n, "_") {
          ScanIsFold(PathJoin(dir, n), dirs + [n], ch, cfg, m);
        }
    }
  }

  /** A file's step is the fold of its one-element listing. */
  lemma FileIsFold<D>(dir: string, dirs: seq<string>, n: string, c: string, cfg: Config<D>, m: map<string, D>)
    ensures ScanEntry(dir, File(n, c), cfg, m) == Fold(Contributions(EntryFiles(dir, dirs, File(n, c)), cfg), m)
  {
    var fs := EntryFiles(dir, dirs, File(n, c));
    assert fs == [FileRef(PathJoin(dir, n), dirs, n, c)];
    var cs := Contributions(fs, cfg);
    assert cs == [Contribution(PathJoin(dir, n), n, c, cfg)];
    assert cs[..0] == [];
  }

  /** The recursive walk is the fold of the contributions of its flattened
      file listing. */
  lemma {:induction false} ScanIsFold<D>(dir: string, dirs: seq<string>, es: seq<Entry>, cfg: Config<D>, m: map<string, D>)
    ensures ScanEntries(dir, es, cfg, m) == Fold(Contributions(VisibleFiles(dir, dirs, es), cfg), m)
    decreases es, 0
  {
    if |es| > 0 {
      var here := EntryFiles(dir, dirs, es[0]);
      var rest := VisibleFiles(dir, dirs, es[1..]);
      ContributionsConcat(here, rest, cfg);
      FoldConcat(Contributions(here, cfg), Contributions(rest, cfg), m);
      EntryIsFold(dir, dirs, es[0], cfg, m);
      ScanIsFold(dir, dirs, es[1..], cfg, ScanEntry(dir, es[0], cfg, m));
    }
  }

  /** Whether a contribution sets the given URL. */
  predicate Sets<D>(c: Option<(string, D)>, url: string) {
    c.Some? && c.value.0 == url
  }

  /** Index of the last contribution in the list that sets `url`. */
  function LastWriter<D>(cs: seq<Option<(string, D)>>, url: string): (r: Option<nat>)
    ensures r.Some? ==> r.value < |cs| && Sets(cs[r.value], url)
    ensures r.Some? ==> forall j :: r.value < j < |cs| ==> !Sets(cs[j], url)
    ensures r.None? ==> forall j :: 0 <= j < |cs| ==> !Sets(cs[j], url)
    decreases |cs|
  {
    if |cs| == 0 then None
    else if Sets(cs[|cs| - 1], url) then Some(|cs| - 1)
    else
      var r := LastWriter(cs[..|cs| - 1], url);
      assert forall j :: 0 <= j < |cs| - 1 ==> cs[..|cs| - 1][j] == cs[j];
      r
  }

  /** Last write wins: a URL some contribution sets maps to the date the
      last such contribution gives it. */
  lemma {:induction false} LastWriteWins<D>(cs: seq<Option<(string, D)>>, m: map<string, D>, url: string)
    requires LastWriter(cs, url).Some?
    ensures url in Fold(cs, m)
    ensures cs[LastWriter(cs, url).value] == Some((url, Fold(cs, m)[url]))
    decreases |cs|
  {
    var n := |cs| - 1;
    var init := cs[..n];
    if !Sets(cs[n], url) {
      assert LastWriter(cs, url) == LastWriter(init, url);
      LastWriteWins(init, m, url);
      assert init[LastWriter(init, url).value] == cs[LastWriter(init, url).value];
    }
  }

  /** A URL no contribution sets keeps its value from the starting map. */
  lemma {:induction false} UnwrittenKept<D>(cs: seq<Option<(string, D)>>, m: map<string, D>, url: string)
    requires LastWriter(cs, url).None?
    ensures url in Fold(cs, m) <==> url in m
    ensures url in m ==> Fold(cs, m)[url] == m[url]
    decreases |cs|
  {
    if |cs| > 0 {
      var init := cs[..|cs| - 1];
      assert LastWriter(cs, url) == LastWriter(init, url);
      UnwrittenKept(init, m, url);
    }
  }

  /** `getSitemapDates`: a missing blog directory gives an empty map;
      otherwise the walk from `BlogDir(cwd)`, starting from an empty map. The
      result holds exactly the URLs some reachable selected file produces,
      each with the date the last such file in listing order gives it. */
  function GetSitemapDates<D>(root: Option<seq<Entry>>, cwd: string, cfg: Config<D>): (r: map<string, D>)
    ensures root.None? ==> r == map[]
    ensures root.Some? ==> forall url ::
      (url in r <==> LastWriter(Contributions(VisibleFiles(BlogDir(cwd), [], root.value), cfg), url).Some?)
    ensures root.Some? ==> forall url :: url in r ==>
      (var cs := Contributions(VisibleFiles(BlogDir(cwd), [], root.value), cfg);
       cs[LastWriter(cs, url).value] == Some((url, r[url])))
  {
    match root
    case None => map[]
    case Some(es) =>
      var blogDir := BlogDir(cwd);
      var r := ScanEntries(blogDir, es, cfg, map[]);
      SitemapOrigins(blogDir, es, cfg);
      r
  }

  /** The scan result, URL by URL, in terms of the last writer. */
  lemma SitemapOrigins<D>(rootPath: string, es: seq<Entry>, cfg: Config<D>)
    ensures var cs := Contributions(VisibleFiles(rootPath, [], es), cfg);
      forall url :: url in ScanEntries(rootPath, es, cfg, map[]) <==> LastWriter(cs, url).Some?
    ensures var cs := Contributions(VisibleFiles(rootPath, [], es), cfg);
      forall url :: url in ScanEntries(rootPath, es, cfg, map[]) ==>
        cs[LastWriter(cs, url).value] == Some((url, ScanEntries(rootPath, es, cfg, map[])[url]))
  {
    var cs := Contributions(VisibleFiles(rootPath, [], es), cfg);
    ScanIsFold(rootPath, [], es, cfg, map[]);
    forall url
      ensures url in Fold(cs, map[]) <==> LastWriter(cs, url).Some?
      ensures url in Fold(cs, map[]) ==> cs[LastWriter(cs, url).value] == Some((url, Fold(cs, map[])[url]))
    {
      if LastWriter(cs, url).Some? {
        LastWriteWins(cs, map[], url);
      } else {
        UnwrittenKept(cs, map[], url);
      }
    }
  }

  /** Every selected file the walk reaches has its URL in the sitemap. */
  lemma SelectedFileListed<D>(cwd: string, es: seq<Entry>, cfg: Config<D>, i: nat)
    requires i < |VisibleFiles(BlogDir(cwd), [], es)|
    requires var f := VisibleFiles(BlogDir(cwd), [], es)[i]; Selected(f.name, f.content, cfg)
    ensures var f := VisibleFiles(BlogDir(cwd), [], es)[i];
      BuildUrlFromFile(f.path, cfg.baseUrl, cfg.slugify) in GetSitemapDates(Some(es), cwd, cfg)
  {
    var files := VisibleFiles(BlogDir(cwd), [], es);
    var cs := Contributions(files, cfg);
    var url := BuildUrlFromFile(files[i].path, cfg.baseUrl, cfg.slugify);
    assert Sets(cs[i], url);
    assert LastWriter(cs, url).Some?;
    InSitemapIff(cwd, es, cfg, url);
  }

  /** One URL's membership in the sitemap: some reachable file sets it. */
  lemma InSitemapIff<D>(cwd: string, es: seq<Entry>, cfg: Config<D>, url: string)
    ensures url in GetSitemapDates(Some(es), cwd, cfg)
            <==> LastWriter(Contributions(VisibleFiles(BlogDir(cwd), [], es), cfg), url).Some?
  {
    var r := GetSitemapDates(Some(es), cwd, cfg);
    assert url in r <==> LastWriter(Contributions(VisibleFiles(BlogDir(cwd), [], es), cfg), url).Some?;
  }

  /** A path of three plain directory names has exactly those parts. */
  lemma PlainPathParts(x: string, y: string, z: string)
    requires '/' !in x && '\\' !in x && '/' !in y && '\\' !in y && '/' !in z && '\\' !in z
    ensures PathParts(x + "/" + y + "/" + z) == [x, y, z]
  {
    PathPartsWithCategory(x, y, z);
    PathPartsOfName(x);
    PathPartsOfName(z);
  }

  /** Three parts that are not locale tags leave a path's locale unchanged. */
  lemma ThreePlainPartsKeepLocale(a: seq<string>, x: string, y: string, z: string)
    requires I18n.ParseLocale(x).None? && I18n.ParseLocale(y).None? && I18n.ParseLocale(z).None?
    ensures PathLocale(a + [x, y, z]) == PathLocale(a)
  {
    var b := [x, y, z];
    forall i | 0 <= i < |b|
      ensures I18n.ParseLocale(b[i]).None?
    {
      assert b[i] == x || b[i] == y || b[i] == z;
    }
    PlainSuffixKeepsLocale(a, b);
  }

  /** Three plain directory names that are not locale tags, below `cwd`,
      leave the locale of `cwd` unchanged. */
  lemma PlainDirsKeepLocale(cwd: string, x: string, y: string, z: string)
    requires '/' !in x && '\\' !in x && '/' !in y && '\\' !in y && '/' !in z && '\\' !in z
    requires I18n.ParseLocale(x).None? && I18n.ParseLocale(y).None? && I18n.ParseLocale(z).None?
    ensures PathLocale(PathParts(cwd + "/" + (x + "/" + y + "/" + z))) == PathLocale(PathParts(cwd))
  {
    PathPartsConcat(cwd, x + "/" + y + "/" + z);
    PlainPathParts(x, y, z);
    ThreePlainPartsKeepLocale(PathParts(cwd), x, y, z);
  }

  /** The parts of `BLOG_PATH` are not locale tags, so the blog directory
      has the locale of the working directory: English unless some
      directory of `cwd` is named `en` or `zh`. */
  lemma BlogDirLocale(cwd: string)
    ensures PathLocale(PathParts(BlogDir(cwd))) == PathLocale(PathParts(cwd))
  {
    assert BlogDir(cwd) == cwd + "/" + ("src" + "/" + "data" + "/" + "blog");
    PlainDirsKeepLocale(cwd, "src", "data", "blog");
  }
}

=== FILE: sitemap_url.dfy ===
/** The URL the sitemap scanner gives a markdown file
    (src/utils/getSitemapDates.ts, `buildUrlFromFile`). */
module SitemapUrl {
  import opened Options
  import opened Strings
  import opened I18n
  import Seqs

  /** The `/`-parts of a file path once back-slashes are read as slashes. */
  function PathParts(filePath: string): (r: seq<string>)
    ensures |r| >= 1
  {
    Split(ReplaceChar(filePath, '\\', '/'), '/')
  }

  /** `parts.findIndex(p => p === "en" || p === "zh")`, searching from `from`. */
  function FindLocaleIndex(parts: seq<string>, from: nat): (r: Option<nat>)
    ensures r.Some? ==> from <= r.value < |parts| && ParseLocale(parts[r.value]).Some?
    ensures r.Some? ==> forall j :: from <= j < r.value ==> ParseLocale(parts[j]).None?
    ensures r.None? ==> forall j :: from <= j < |parts| ==> ParseLocale(parts[j]).None?
    decreases |parts| - from
  {
    if from >= |parts| then None
    else if parts[from] == "en" || parts[from] == "zh" then Some(from)
    else FindLocaleIndex(parts, from + 1)
  }

  /** Reference reading of the path's locale: the first part that is a locale
      tag decides, and a path with none is English. */
  function PathLocale(parts: seq<string>): Locale
    decreases |parts|
  {
    if |parts| == 0 then DEFAULT_LOCALE
    else match ParseLocale(parts[0])
      case Some(l) => l
      case None => PathLocale(parts[1..])
  }

  /** The `findIndex` search and the reference reading agree. */
  lemma {:induction false} FindLocaleIndexAgrees(parts: seq<string>, from: nat)
    requires from <= |parts|
    ensures FindLocaleIndex(parts, from).Some? ==>
      Tag(PathLocale(parts[from..])) == parts[FindLocaleIndex(parts, from).value]
    ensures FindLocaleIndex(parts, from).None? ==> PathLocale(parts[from..]) == DEFAULT_LOCALE
    decreases |parts| - from
  {
    if from < |parts| && ParseLocale(parts[from]).None? {
      FindLocaleIndexAgrees(parts, from + 1);
      assert parts[from..][1..] == parts[from + 1..];
    }
  }

  /** A part that is not a locale tag never changes the path's locale. */
  lemma {:induction false} PathLocaleSkipsPart(a: seq<string>, c: string, b: seq<string>)
    requires ParseLocale(c).None?
    ensures PathLocale(a + [c] + b) == PathLocale(a + b)
    decreases |a|
  {
    if |a| == 0 {
      assert a + [c] + b == [c] + b;
      assert ([c] + b)[1..] == b;
      assert a + b == b;
    } else {
      assert (a + [c] + b)[0] == a[0] && (a + b)[0] == a[0];
      assert (a + [c] + b)[1..] == a[1..] + [c] + b;
      assert (a + b)[1..] == a[1..] + b;
      PathLocaleSkipsPart(a[1..], c, b);
    }
  }

  /** Once a locale part occurs, later parts never change the locale. */
  lemma {:induction false} PathLocaleOfPrefix(a: seq<string>, b: seq<string>)
    requires exists i :: 0 <= i < |a| && ParseLocale(a[i]).Some?
    ensures PathLocale(a + b) == PathLocale(a)
    decreases |a|
  {
    var i :| 0 <= i < |a| && ParseLocale(a[i]).Some?;
    assert (a + b)[0] == a[0];
    if ParseLocale(a[0]).None? {
      assert (a + b)[1..] == a[1..] + b;
      assert ParseLocale(a[1..][i - 1]).Some?;
      PathLocaleOfPrefix(a[1..], b);
    }
  }

  /** Parts that are not locale tags, appended after a path, never change
      its locale. */
  lemma {:induction false} PlainSuffixKeepsLocale(a: seq<string>, b: seq<string>)
    requires forall i :: 0 <= i < |b| ==> ParseLocale(b[i]).None?
    ensures PathLocale(a + b) == PathLocale(a)
    decreases |b|
  {
    if |b| > 0 {
      var last := b[|b| - 1];
      var init := b[..|b| - 1];
      assert a + b == a + init + [last] + [];
      assert a + init == a + init + [];
      PathLocaleSkipsPart(a + init, last, []);
      PlainSuffixKeepsLocale(a, init);
    } else {
      assert a + b == a;
    }
  }

  /** `slugifyStr(filename.replace(/\.md$/, ""))` for the last part. */
  function FileSlug(parts: seq<string>, slugify: string -> string): (r: string)
    requires |parts| >= 1
    ensures var name := parts[|parts| - 1];
      EndsWith(name, ".md") ==> r == slugify(name[..|name| - 3])
    ensures var name := parts[|parts| - 1];
      !EndsWith(name, ".md") ==> r == slugify(name)
  {
    slugify(StripSuffix(parts[|parts| - 1], ".md"))
  }

  /** `langIndex >= 0 ? parts[langIndex] : "en"`: the scanner's locale, as
      the tag string it compares. */
  function ScannerLang(parts: seq<string>): (r: string)
    ensures r == "en" || r == "zh"
  {
    var langIndex := FindLocaleIndex(parts, 0);
    if langIndex.Some? then parts[langIndex.value] else "en"
  }

  /** `buildUrlFromFile`: the base URL without one trailing slash, the route
      of the post for the path's locale, and a closing slash. */
  function BuildUrlFromFile(filePath: string, baseUrl: string, slugify: string -> string): (r: string)
    ensures r == StripSuffix(baseUrl, "/")
              + PostUrl(PathLocale(PathParts(filePath)), FileSlug(PathParts(filePath), slugify)) + "/"
    ensures StartsWith(r, StripSuffix(baseUrl, "/"))
    ensures EndsWith(r, "/posts/" + FileSlug(PathParts(filePath), slugify) + "/")
  {
    var normalizedBase := StripSuffix(baseUrl, "/");
    var parts := PathParts(filePath);
    var lang := ScannerLang(parts);
    var filename := parts[|parts| - 1];
    var slug := slugify(StripSuffix(filename, ".md"));
    var prefix := if lang == "en" then "" else "/zh";
    ScannerUrl(normalizedBase, parts, slugify);
    normalizedBase + prefix + "/posts/" + slug + "/"
  }

  /** The scanner's own assembly of the URL, stated over the path parts. */
  lemma ScannerUrl(base: string, parts: seq<string>, slugify: string -> string)
    requires |parts| >= 1
    ensures var prefix := if ScannerLang(parts) == "en" then "" else "/zh";
      var slug := slugify(StripSuffix(parts[|parts| - 1], ".md"));
      var url := base + prefix + "/posts/" + slug + "/";
      && url == base + PostUrl(PathLocale(parts), FileSlug(parts, slugify)) + "/"
      && StartsWith(url, base)
      && EndsWith(url, "/posts/" + FileSlug(parts, slugify) + "/")
  {
    var prefix := if ScannerLang(parts) == "en" then "" else "/zh";
    var slug := FileSlug(parts, slugify);
    SitemapPrefixAgrees(parts);
    Seqs.Reassociate(base, prefix, "/posts/", slug);
    assert PostUrl(PathLocale(parts), slug) == prefix + "/posts/" + slug;
    UrlEnds(base, prefix, slug);
  }

  lemma UrlEnds(base: string, prefix: string, slug: string)
    ensures StartsWith(base + prefix + "/posts/" + slug + "/", base)
    ensures EndsWith(base + prefix + "/posts/" + slug + "/", "/posts/" + slug + "/")
  {
    var tail := "/posts/" + slug + "/";
    Seqs.Reassociate(base + prefix, "/posts/", slug, "/");
    ConcatEnds(base + prefix, tail);
    Seqs.Associate(base, prefix, tail);
    ConcatEnds(base, prefix + tail);
  }

  /** The scanner's `lang === "en" ? "" : "/zh"` is the route prefix of the
      path's locale. */
  lemma SitemapPrefixAgrees(parts: seq<string>)
    ensures (if ScannerLang(parts) == "en" then "" else "/zh") == LocalePrefix(PathLocale(parts))
  {
    FindLocaleIndexAgrees(parts, 0);
    assert parts[0..] == parts;
  }

  /** Only one trailing slash of the base URL is dropped: a base without one
      gives the same URL as that base with one added. */
  lemma BaseTrailingSlash(filePath: string, base: string, slugify: string -> string)
    requires !EndsWith(base, "/")
    ensures BuildUrlFromFile(filePath, base + "/", slugify) == BuildUrlFromFile(filePath, base, slugify)
    ensures StartsWith(BuildUrlFromFile(filePath, base + "//", slugify), base + "/")
  {
    assert StripSuffix(base + "/", "/") == base;
    assert StripSuffix(base + "//", "/") == base + "/";
  }

  /** Back-slashes and slashes separate path parts alike. */
  lemma BackslashIsSlash(filePath: string, base: string, slugify: string -> string)
    ensures BuildUrlFromFile(filePath, base, slugify)
         == BuildUrlFromFile(ReplaceChar(filePath, '\\', '/'), base, slugify)
  {
    var p := ReplaceChar(filePath, '\\', '/');
    assert ReplaceChar(p, '\\', '/') == p;
  }

  /** Replacement distributes over concatenation. */
  lemma ReplaceCharConcat(a: string, b: string, x: char, y: char)
    ensures ReplaceChar(a + b, x, y) == ReplaceChar(a, x, y) + ReplaceChar(b, x, y)
  {
    var l := ReplaceChar(a + b, x, y);
    var rr := ReplaceChar(a, x, y) + ReplaceChar(b, x, y);
    assert forall i :: 0 <= i < |l| ==> l[i] == rr[i];
  }

  /** The parts of `a/b` are the parts of `a` followed by those of `b`. */
  lemma PathPartsConcat(a: string, b: string)
    ensures PathParts(a + "/" + b) == PathParts(a) + PathParts(b)
  {
    ReplaceCharConcat(a + "/", b, '\\', '/');
    ReplaceCharConcat(a, "/", '\\', '/');
    assert ReplaceChar("/", '\\', '/') == "/";
    SplitConcat(ReplaceChar(a, '\\', '/'), ReplaceChar(b, '\\', '/'), '/');
  }

  /** A category directory contributes exactly its own name as one part. */
  lemma PathPartsWithCategory(dir: string, category: string, rest: string)
    requires '/' !in category && '\\' !in category
    ensures PathParts(dir + "/" + category + "/" + rest) == PathParts(dir) + [category] + PathParts(rest)
  {
    var inner := category + "/" + rest;
    assert dir + "/" + category + "/" + rest == dir + "/" + inner;
    PathPartsConcat(dir, inner);
    PathPartsConcat(category, rest);
    PathPartsOfName(category);
  }

  /** A name without separators is a single part. */
  lemma PathPartsOfName(name: string)
    requires '/' !in name && '\\' !in name
    ensures PathParts(name) == [name]
  {
    var p := ReplaceChar(name, '\\', '/');
    assert forall i :: 0 <= i < |name| ==> p[i] == name[i];
    assert p == name;
    assert FindChar(name, '/') == None;
  }

  /** A category directory between the root and the file never changes the
      URL: only the first locale part and the file name matter. */
  lemma CategoryIgnored(dir: string, category: string, rest: string, base: string, slugify: string -> string)
    requires '/' !in category && '\\' !in category
    requires ParseLocale(category).None?
    ensures BuildUrlFromFile(dir + "/" + category + "/" + rest, base, slugify)
         == BuildUrlFromFile(dir + "/" + rest, base, slugify)
  {
    PathPartsWithCategory(dir, category, rest);
    PathPartsConcat(dir, rest);
    PathLocaleSkipsPart(PathParts(dir), category, PathParts(rest));
    FileSlugSkipsPart(PathParts(dir), category, PathParts(rest), slugify);
    UrlDependsOnLocaleAndSlug(dir + "/" + category + "/" + rest, dir + "/" + rest, base, slugify);
  }

  /** Inserting a part before a non-empty tail keeps the file slug. */
  lemma FileSlugSkipsPart(pd: seq<string>, category: string, pt: seq<string>, slugify: string -> string)
    requires |pt| >= 1
    ensures FileSlug(pd + [category] + pt, slugify) == FileSlug(pd + pt, slugify)
  {
    FileSlugOfConcat(pd + [category], pt, slugify);
    FileSlugOfConcat(pd, pt, slugify);
  }

  lemma LastOfConcat(a: seq<string>, b: seq<string>)
    requires |b| >= 1
    ensures (a + b)[|a + b| - 1] == b[|b| - 1]
  {
  }

  /** The URL depends on the path only through its locale and file slug. */
  lemma UrlDependsOnLocaleAndSlug(p1: string, p2: string, base: string, slugify: string -> string)
    requires PathLocale(PathParts(p1)) == PathLocale(PathParts(p2))
    requires FileSlug(PathParts(p1), slugify) == FileSlug(PathParts(p2), slugify)
    ensures BuildUrlFromFile(p1, base, slugify) == BuildUrlFromFile(p2, base, slugify)
  {
  }

  /** Below a root holding a locale part, the root decides the locale and
      the file name the slug. */
  lemma RootLocaleParts(root: string, rest: string, slugify: string -> string)
    requires exists i :: 0 <= i < |PathParts(root)| && ParseLocale(PathParts(root)[i]).Some?
    ensures PathLocale(PathParts(root + "/" + rest)) == PathLocale(PathParts(root))
    ensures FileSlug(PathParts(root + "/" + rest), slugify) == FileSlug(PathParts(rest), slugify)
  {
    var a, b := PathParts(root), PathParts(rest);
    PathPartsConcat(root, rest);
    PathLocaleOfPrefix(a, b);
    FileSlugOfJoin(root, rest, slugify);
  }

  /** The file slug of `a/b` is the file slug of `b`. */
  lemma FileSlugOfJoin(a: string, b: string, slugify: string -> string)
    ensures FileSlug(PathParts(a + "/" + b), slugify) == FileSlug(PathParts(b), slugify)
  {
    PathPartsConcat(a, b);
    FileSlugOfConcat(PathParts(a), PathParts(b), slugify);
  }

  lemma FileSlugOfConcat(pa: seq<string>, pb: seq<string>, slugify: string -> string)
    requires |pb| >= 1
    ensures FileSlug(pa + pb, slugify) == FileSlug(pb, slugify)
  {
    LastOfConcat(pa, pb);
  }

  /** The scan hands over absolute paths, so a directory named like a locale
      above the blog directory decides the locale of every URL below it. */
  lemma RootLocaleDecides(root: string, rest: string, base: string, slugify: string -> string)
    requires exists i :: 0 <= i < |PathParts(root)| && ParseLocale(PathParts(root)[i]).Some?
    ensures BuildUrlFromFile(root + "/" + rest, base, slugify)
         == StripSuffix(base, "/") + PostUrl(PathLocale(PathParts(root)), FileSlug(PathParts(rest), slugify)) + "/"
  {
    RootLocaleParts(root, rest, slugify);
  }
}

=== FILE: strings.dfy ===
/** The absent-or-present value the model uses wherever the source returns
    `undefined`, `null` or a failed regular-expression match. */
module Options {
  datatype Option<+T> = None | Some(value: T)
}

/** Generic sequence helpers: the `Array.prototype` operations the source
    chains together (`filter`, `map`, `slice(0, -1)`, `slice(-1)`). */
module Seqs {

  /** `xs.filter(keep)`: the elements of `s` that satisfy `keep`, in order. */
  function Filter<T(==)>(s: seq<T>, keep: T -> bool): (r: seq<T>)
    ensures |r| <= |s|
    ensures forall i :: 0 <= i < |r| ==> keep(r[i]) && r[i] in s
    ensures forall i :: 0 <= i < |s| && keep(s[i]) ==> s[i] in r
  {
    if |s| == 0 then []
    else if keep(s[0]) then [s[0]] + Filter(s[1..], keep)
    else Filter(s[1..], keep)
  }

  /** `xs.map(f)`. */
  function Map<T, U>(s: seq<T>, f: T -> U): (r: seq<U>)
    ensures |r| == |s|
    ensures forall i :: 0 <= i < |s| ==> r[i] == f(s[i])
  {
    if |s| == 0 then [] else [f(s[0])] + Map(s[1..], f)
  }

  /** `xs.slice(0, -1)`: every element but the last; empty stays empty. */
  function DropLast<T>(s: seq<T>): (r: seq<T>)
    ensures |s| == 0 ==> r == []
    ensures |s| > 0 ==> |r| == |s| - 1 && r + [s[|s| - 1]] == s
  {
    if |s| == 0 then [] else s[..|s| - 1]
  }

  /** `a` occurs in `b` with its order kept, possibly with gaps
      (greedy left-to-right matching, which is complete for subsequences). */
  predicate IsSubsequence<T(==)>(a: seq<T>, b: seq<T>)
    decreases |b|
  {
    if |a| == 0 then true
    else if |b| == 0 then false
    else if a[0] == b[0] then IsSubsequence(a[1..], b[1..])
    else IsSubsequence(a, b[1..])
  }

  /** A prefix of a subsequence is still a subsequence. */
  lemma {:induction false} SubsequencePrefix<T>(a: seq<T>, b: seq<T>, k: nat)
    requires IsSubsequence(a, b) && k <= |a|
    ensures IsSubsequence(a[..k], b)
    decreases |b|
  {
    if k > 0 {
      if a[0] == b[0] {
        SubsequencePrefix(a[1..], b[1..], k - 1);
        assert a[..k][1..] == a[1..][..k - 1];
      } else {
        SubsequencePrefix(a, b[1..], k);
      }
    }
  }

  /** Dropping the first element of a subsequence keeps it a subsequence. */
  lemma {:induction false} SubsequenceTail<T>(a: seq<T>, b: seq<T>)
    requires |a| > 0 && IsSubsequence(a, b)
    ensures IsSubsequence(a[1..], b)
    decreases |b|, 1
  {
    if a[0] == b[0] {
      SubsequenceWeaken(a[1..], b);
    } else {
      SubsequenceTail(a, b[1..]);
      SubsequenceWeaken(a[1..], b);
    }
  }

  /** A subsequence of the tail of `b` is a subsequence of `b`. */
  lemma {:induction false} SubsequenceWeaken<T>(a: seq<T>, b: seq<T>)
    requires |b| > 0 && IsSubsequence(a, b[1..])
    ensures IsSubsequence(a, b)
    decreases |b|, 0
  {
    if |a| > 0 && a[0] == b[0] {
      SubsequenceTail(a, b[1..]);
    }
  }

  /** Being a subsequence is transitive. */
  lemma {:induction false} SubsequenceTransitive<T>(a: seq<T>, b: seq<T>, c: seq<T>)
    requires IsSubsequence(a, b) && IsSubsequence(b, c)
    ensures IsSubsequence(a, c)
    decreases |c|
  {
    if |a| > 0 {
      if b[0] == c[0] {
        if a[0] == b[0] {
          SubsequenceTransitive(a[1..], b[1..], c[1..]);
        } else {
          SubsequenceTransitive(a, b[1..], c[1..]);
        }
      } else {
        SubsequenceTransitive(a, b, c[1..]);
        SubsequenceWeaken(a, c);
      }
    }
  }

  /** Every sequence is a subsequence of itself. */
  lemma {:induction false} SubsequenceReflexive<T>(s: seq<T>)
    ensures IsSubsequence(s, s)
  {
    if |s| > 0 {
      SubsequenceReflexive(s[1..]);
    }
  }

  /** Filtering keeps the survivors in their original relative order. */
  lemma {:induction false} FilterIsSubsequence<T>(s: seq<T>, keep: T -> bool)
    ensures IsSubsequence(Filter(s, keep), s)
  {
    if |s| > 0 {
      FilterIsSubsequence(s[1..], keep);
      var a := Filter(s, keep);
      if !keep(s[0]) && |a| > 0 {
        assert a[0] != s[0];
      }
    }
  }

  /** Filtering distributes over concatenation: no element moves across the
      boundary, so order between the two parts is preserved. */
  lemma {:induction false} FilterConcat<T>(a: seq<T>, b: seq<T>, keep: T -> bool)
    ensures Filter(a + b, keep) == Filter(a, keep) + Filter(b, keep)
  {
    if |a| > 0 {
      assert (a + b)[1..] == a[1..] + b;
      FilterConcat(a[1..], b, keep);
    } else {
      assert a + b == b;
    }
  }

  /** Three filters in a row are one filter by a predicate that holds
      exactly when all three do. */
  lemma {:induction false} FilterThrice<T>(s: seq<T>, p: T -> bool, q: T -> bool, r: T -> bool, k: T -> bool)
    requires forall x :: k(x) == (p(x) && q(x) && r(x))
    ensures Filter(Filter(Filter(s, p), q), r) == Filter(s, k)
  {
    if |s| > 0 {
      FilterThrice(s[1..], p, q, r, k);
    }
  }

  /** A predicate and its complement split a sequence: the two filters
      together hold every element exactly once. */
  lemma {:induction false} FilterPartition<T>(s: seq<T>, p: T -> bool, q: T -> bool)
    requires forall x :: q(x) == !p(x)
    ensures |Filter(s, p)| + |Filter(s, q)| == |s|
    ensures multiset(Filter(s, p)) + multiset(Filter(s, q)) == multiset(s)
  {
    if |s| > 0 {
      FilterPartition(s[1..], p, q);
      assert s == [s[0]] + s[1..];
    }
  }

  /** Re-bracketing concatenations. */
  lemma Associate<T>(a: seq<T>, b: seq<T>, c: seq<T>)
    ensures a + b + c == a + (b + c)
  {
  }

  lemma Reassociate<T>(a: seq<T>, b: seq<T>, c: seq<T>, d: seq<T>)
    ensures a + b + c + d == a + (b + c + d)
  {
  }
}

/** JavaScript string operations over `seq<char>`. JavaScript strings are
    UTF-16 code units and Dafny characters are Unicode scalar values; no
    operation here depends on the difference, since every separator and tag
    is ASCII. */
module Strings {
  import opened Options
  import Seqs

  predicate StartsWith(s: string, p: string) { p <= s }

  predicate EndsWith(s: string, x: string) { |x| <= |s| && s[|s| - |x|..] == x }

  /** A concatenation starts with its left part and ends with its right. */
  lemma ConcatEnds(a: string, b: string)
    ensures StartsWith(a + b, a) && EndsWith(a + b, b)
  {
    assert (a + b)[|a|..] == b;
  }

  /** `pat` occurs in `s` starting at index `i`. */
  predicate OccursAt(s: string, i: nat, pat: string) {
    i + |pat| <= |s| && s[i..i + |pat|] == pat
  }

  /** `String.prototype.indexOf(pat, from)`: the first occurrence at or
      after `from`. */
  function FindFrom(s: string, pat: string, from: nat): (r: Option<nat>)
    ensures r.Some? ==> from <= r.value && OccursAt(s, r.value, pat)
    ensures r.Some? ==> forall j :: from <= j < r.value ==> !OccursAt(s, j, pat)
    ensures r.None? ==> forall j :: from <= j ==> !OccursAt(s, j, pat)
    decreases |s| - from
  {
    if from + |pat| > |s| then None
    else if OccursAt(s, from, pat) then Some(from)
    else FindFrom(s, pat, from + 1)
  }

  /** Index of the first `c` in `s`. */
  function FindChar(s: string, c: char): (r: Option<nat>)
    ensures r.None? <==> c !in s
    ensures r.Some? ==> r.value < |s| && s[r.value] == c && c !in s[..r.value]
  {
    if |s| == 0 then None
    else if s[0] == c then Some(0)
    else match FindChar(s[1..], c)
      case None => None
      case Some(i) =>
        assert s[..i + 1] == [s[0]] + s[1..][..i];
        Some(i + 1)
  }

  /** `s.split(c)` for a one-character separator: never empty, and `""`
      splits to `[""]`. */
  function Split(s: string, c: char): (r: seq<string>)
    ensures |r| >= 1
    ensures forall k :: 0 <= k < |r| ==> c !in r[k]
    decreases |s|
  {
    match FindChar(s, c)
    case None => [s]
    case Some(i) => [s[..i]] + Split(s[i + 1..], c)
  }

  /** `xs.join(c)`: `[]` joins to `""`. */
  function Join(xs: seq<string>, c: char): (r: string)
    ensures |xs| == 0 ==> r == ""
    ensures |xs| == 1 ==> r == xs[0]
  {
    if |xs| == 0 then ""
    else if |xs| == 1 then xs[0]
    else xs[0] + [c] + Join(xs[1..], c)
  }

  /** A join starts with the first part, followed by the separator when
      there is more than one part, and ends with the last part. */
  lemma {:induction false} JoinEnds(xs: seq<string>, c: char)
    requires |xs| >= 1
    ensures StartsWith(Join(xs, c), xs[0]) && EndsWith(Join(xs, c), xs[|xs| - 1])
    ensures |xs| >= 2 ==> |xs[0]| < |Join(xs, c)| && Join(xs, c)[|xs[0]|] == c
    decreases |xs|
  {
    if |xs| >= 2 {
      JoinEnds(xs[1..], c);
      ConcatEnds(xs[0] + [c], Join(xs[1..], c));
      assert xs[1..][|xs[1..]| - 1] == xs[|xs| - 1];
      var r := Join(xs, c);
      assert r == xs[0] + [c] + Join(xs[1..], c);
      assert r[|r| - |Join(xs[1..], c)|..] == Join(xs[1..], c);
      assert r[|r| - |xs[|xs| - 1]|..] == Join(xs[1..], c)[|Join(xs[1..], c)| - |xs[|xs| - 1]|..];
    }
  }

  /** Joining the parts of a split gives the original string back. */
  lemma {:induction false} JoinSplit(s: string, c: char)
    ensures Join(Split(s, c), c) == s
    decreases |s|
  {
    match FindChar(s, c)
    case None =>
    case Some(i) =>
      var rest := Split(s[i + 1..], c);
      JoinSplit(s[i + 1..], c);
      assert ([s[..i]] + rest)[1..] == rest;
      assert Join([s[..i]] + rest, c) == s[..i] + [c] + Join(rest, c);
      assert s == s[..i] + [c] + s[i + 1..];
  }

  /** The index of a first occurrence is the one `FindChar` reports. */
  lemma FindCharFirst(s: string, c: char, i: nat)
    requires i < |s| && s[i] == c && c !in s[..i]
    ensures FindChar(s, c) == Some(i)
  {
    assert s[i] in s;
  }

  /** Splitting at the first separator: the text before it, then the parts
      of the rest. */
  lemma SplitAtFirst(s: string, c: char, i: nat)
    requires i < |s| && s[i] == c && c !in s[..i]
    ensures Split(s, c) == [s[..i]] + Split(s[i + 1..], c)
  {
    FindCharFirst(s, c, i);
  }

  /** Splitting a string at an occurrence of the separator splits both
      halves independently. */
  lemma {:induction false} SplitConcat(a: string, b: string, c: char)
    ensures Split(a + [c] + b, c) == Split(a, c) + Split(b, c)
    decreases |a|
  {
    var s := a + [c] + b;
    if c !in a {
      assert s[..|a|] == a;
      assert s[|a| + 1..] == b;
      SplitAtFirst(s, c, |a|);
    } else {
      var i := FindChar(a, c).value;
      var tail := a[i + 1..];
      assert s[..i] == a[..i];
      assert s[i + 1..] == tail + [c] + b;
      SplitAtFirst(s, c, i);
      SplitAtFirst(a, c, i);
      SplitConcat(tail, b, c);
      var x, p, q := a[..i], Split(tail, c), Split(b, c);
      assert Split(s, c) == [x] + (p + q);
      assert Split(a, c) == [x] + p;
      Seqs.Associate([x], p, q);
    }
  }

  /** Splitting a join gives the parts back when no part holds the
      separator. */
  lemma {:induction false} SplitJoin(xs: seq<string>, c: char)
    requires |xs| >= 1
    requires forall k :: 0 <= k < |xs| ==> c !in xs[k]
    ensures Split(Join(xs, c), c) == xs
  {
    if |xs| == 1 {
      assert FindChar(xs[0], c) == None;
    } else {
      SplitJoin(xs[1..], c);
      assert FindChar(xs[0], c) == None;
      SplitConcat(xs[0], Join(xs[1..], c), c);
      assert xs == [xs[0]] + xs[1..];
    }
  }

  /** Join over a concatenation inserts exactly one separator at the seam. */
  lemma {:induction false} JoinConcat(xs: seq<string>, ys: seq<string>, c: char)
    requires |xs| >= 1 && |ys| >= 1
    ensures Join(xs + ys, c) == Join(xs, c) + [c] + Join(ys, c)
  {
    if |xs| == 1 {
      assert (xs + ys)[1..] == ys;
    } else {
      assert (xs + ys)[1..] == xs[1..] + ys;
      JoinConcat(xs[1..], ys, c);
    }
  }

  /** Number of occurrences of `c` in `s`. */
  function CountChar(s: string, c: char): nat
  {
    if |s| == 0 then 0 else (if s[0] == c then 1 else 0) + CountChar(s[1..], c)
  }

  lemma {:induction false} CountCharConcat(a: string, b: string, c: char)
    ensures CountChar(a + b, c) == CountChar(a, c) + CountChar(b, c)
  {
    if |a| > 0 {
      assert (a + b)[1..] == a[1..] + b;
      CountCharConcat(a[1..], b, c);
    } else {
      assert a + b == b;
    }
  }

  lemma {:induction false} CountCharAbsent(s: string, c: char)
    requires c !in s
    ensures CountChar(s, c) == 0
  {
    if |s| > 0 {
      assert s == [s[0]] + s[1..];
      CountCharAbsent(s[1..], c);
    }
  }

  /** A join of separator-free parts holds one separator per seam. */
  lemma {:induction false} CountCharJoin(xs: seq<string>, c: char)
    requires |xs| >= 1
    requires forall k :: 0 <= k < |xs| ==> c !in xs[k]
    ensures CountChar(Join(xs, c), c) == |xs| - 1
  {
    CountCharAbsent(xs[0], c);
    if |xs| > 1 {
      CountCharJoin(xs[1..], c);
      CountCharConcat(xs[0] + [c], Join(xs[1..], c), c);
      CountCharConcat(xs[0], [c], c);
    }
  }

  /** The last `c`-separated part of `s` (`s.split(c).slice(-1)[0]`). */
  function LastPart(s: string, c: char): (r: string)
    ensures c !in r
    ensures c !in s ==> r == s
    ensures c in s ==> EndsWith(s, [c] + r)
  {
    var parts := Split(s, c);
    LastSplitPartSuffix(s, c);
    parts[|parts| - 1]
  }

  /** The last part of a split that found a separator is preceded by one
      and ends the string. */
  lemma LastSplitPartSuffix(s: string, c: char)
    ensures var parts := Split(s, c);
      c in s ==> EndsWith(s, [c] + parts[|parts| - 1])
  {
    JoinSplit(s, c);
    LastOfJoin(s, c, Split(s, c));
  }

  /** When `s` is a join of parts free of the separator and holds the
      separator, it ends with the separator and the last part. */
  lemma LastOfJoin(s: string, c: char, parts: seq<string>)
    requires |parts| >= 1 && Join(parts, c) == s
    requires forall k :: 0 <= k < |parts| ==> c !in parts[k]
    ensures c in s ==> EndsWith(s, [c] + parts[|parts| - 1])
  {
    if c in s {
      assert |parts| >= 2;
      JoinLast(parts, c);
    }
  }

  /** A join of two or more parts ends with the separator and the last part. */
  lemma JoinLast(xs: seq<string>, c: char)
    requires |xs| >= 2
    ensures EndsWith(Join(xs, c), [c] + xs[|xs| - 1])
  {
    var init := xs[..|xs| - 1];
    var last := xs[|xs| - 1];
    assert init + [last] == xs;
    JoinConcat(init, [last], c);
    SeparatorSuffix(Join(init, c), c, last);
  }

  /** `a`, a separator and `b` ends with the separator and `b`. */
  lemma SeparatorSuffix(a: string, c: char, b: string)
    ensures EndsWith(a + [c] + b, [c] + b)
  {
    assert (a + [c] + b)[|a|..] == [c] + b;
  }


  /** `s.replace(pat, "")` with a string pattern: removes the FIRST
      occurrence only; with no occurrence the string is unchanged. */
  function RemoveFirst(s: string, pat: string): (r: string)
    ensures FindFrom(s, pat, 0).None? ==> r == s
    ensures FindFrom(s, pat, 0).Some? ==>
      var i := FindFrom(s, pat, 0).value;
      |r| == |s| - |pat| && s == r[..i] + pat + r[i..]
  {
    match FindFrom(s, pat, 0)
    case None => s
    case Some(i) =>
      assert s == s[..i] + s[i..i + |pat|] + s[i + |pat|..];
      s[..i] + s[i + |pat|..]
  }

  /** A pattern at the very start is the occurrence removed. */
  lemma RemoveFirstAtStart(pat: string, rest: string)
    ensures RemoveFirst(pat + rest, pat) == rest
  {
  }

  /** `s.replace(/\\/g, "/")`-style replacement of every `a` by `b`. */
  function ReplaceChar(s: string, a: char, b: char): (r: string)
    ensures |r| == |s|
    ensures forall i :: 0 <= i < |s| ==> r[i] == (if s[i] == a then b else s[i])
  {
    if |s| == 0 then "" else [if s[0] == a then b else s[0]] + ReplaceChar(s[1..], a, b)
  }

  /** `s.replace(/x$/, "")` for a literal suffix `x`. */
  function StripSuffix(s: string, x: string): (r: string)
    ensures EndsWith(s, x) ==> r + x == s
    ensures !EndsWith(s, x) ==> r == s
  {
    if EndsWith(s, x) then s[..|s| - |x|] else s
  }

  /** The characters JavaScript's `\s` and `String.prototype.trim` treat as
      white space: WhiteSpace (including the Unicode space separators) plus
      LineTerminator. */
  function IsSpace(ch: char): (r: bool)
    ensures ch == ' ' || ch == '\t' || IsLineTerminator(ch) ==> r
    ensures '!' <= ch <= '~' ==> !r
  {
    ch == ' ' || ch == '\t' || ch == '\n' || ch == '\r' || ch == '\U{000B}' || ch == '\U{000C}'
    || ch == '\U{00A0}' || ch == '\U{1680}' || ('\U{2000}' <= ch <= '\U{200A}')
    || ch == '\U{2028}' || ch == '\U{2029}' || ch == '\U{202F}' || ch == '\U{205F}'
    || ch == '\U{3000}' || ch == '\U{FEFF}'
  }

  /** The characters the regular-expression `.` does not match. */
  function IsLineTerminator(ch: char): (r: bool)
    ensures ch == '\n' ==> r
    ensures ch == ' ' || ch == '\t' ==> !r
  {
    ch == '\n' || ch == '\r' || ch == '\U{2028}' || ch == '\U{2029}'
  }

  /** Drops the leading white space. */
  function TrimStart(s: string): (r: string)
    ensures |r| <= |s| && r == s[|s| - |r|..]
    ensures forall i :: 0 <= i < |s| - |r| ==> IsSpace(s[i])
    ensures |r| > 0 ==> !IsSpace(r[0])
  {
    if |s| > 0 && IsSpace(s[0]) then TrimStart(s[1..]) else s
  }

  /** Drops the trailing white space. */
  function TrimEnd(s: string): (r: string)
    ensures |r| <= |s| && r == s[..|r|]
    ensures forall i :: |r| <= i < |s| ==> IsSpace(s[i])
    ensures |r| > 0 ==> !IsSpace(r[|r| - 1])
  {
    if |s| > 0 && IsSpace(s[|s| - 1]) then TrimEnd(s[..|s| - 1]) else s
  }

  /** `s.trim()`: empty exactly when `s` is all white space, and otherwise
      begins and ends with a non-space character. */
  function Trim(s: string): (r: string)
    ensures |r| <= |s|
    ensures |r| > 0 ==> !IsSpace(r[0]) && !IsSpace(r[|r| - 1])
    ensures r == "" <==> forall i :: 0 <= i < |s| ==> IsSpace(s[i])
  {
    TrimEmptyIffSpace(s);
    TrimEnd(TrimStart(s))
  }

  /** Trimming keeps one slice of the input, with only white space around
      it. */
  lemma TrimIsSlice(s: string)
    ensures var r := Trim(s);
      var k := |s| - |TrimStart(s)|;
      && k + |r| <= |s| && r == s[k..k + |r|]
      && (forall i :: 0 <= i < k ==> IsSpace(s[i]))
      && (forall i :: k + |r| <= i < |s| ==> IsSpace(s[i]))
  {
    var a := TrimStart(s);
    var r := TrimEnd(a);
    assert Trim(s) == r;
    var k := |s| - |a|;
    SliceOfSuffix(s, k, |r|);
    forall i | k + |r| <= i < |s|
      ensures IsSpace(s[i])
    {
      SuffixIndex(s, k, i);
    }
  }

  lemma SliceOfSuffix<T>(s: seq<T>, k: nat, n: nat)
    requires k + n <= |s|
    ensures s[k..][..n] == s[k..k + n]
  {
  }

  lemma SuffixIndex<T>(s: seq<T>, k: nat, i: nat)
    requires k <= i < |s|
    ensures s[k..][i - k] == s[i]
  {
  }

  lemma TrimEmptyIffSpace(s: string)
    ensures TrimEnd(TrimStart(s)) == "" <==> forall i :: 0 <= i < |s| ==> IsSpace(s[i])
  {
    var a := TrimStart(s);
    var r := TrimEnd(a);
    var k := |s| - |a|;
    if r == "" {
      assert |a| == 0;
    } else {
      assert r[0] == a[0] == s[k];
    }
  }

  /** Trimming a string made only of white space gives the empty string. */
  lemma TrimAllSpace(s: string)
    requires forall i :: 0 <= i < |s| ==> IsSpace(s[i])
    ensures Trim(s) == ""
  {
  }
}
